=== FILE: README.md ===
# Ollama chat client — a Dafny model of its core

This project models the logic of a small Next.js front end for an Ollama server. The front end lists the installed models, streams chat answers, keeps conversations in browser storage and relays requests through two proxy routes. Each core becomes pure functions over immutable datatypes, with contracts and lemmas.

The modules follow the program's files:

- **`OllamaClient`** (`ollama_client.dfy`) covers `app/lib/ollama.ts`:
  - base-address resolution over browser storage and an environment value;
  - the fail-soft model listing and connection check;
  - the vision-model heuristic;
  - the payload split of a data URL;
  - the shaping of the chat request;
  - the chunk-by-chunk decoding of the newline-delimited JSON answer.
- **`ConversationStore`** (`conversation_store.dfy`) covers `app/hooks/useOllama.ts`:
  - the hook's state record;
  - the transitions behind `createNewConversation`, `sendMessage`, `deleteConversation`, `clearAllConversations` and `loadModels`;
  - loading from storage;
  - the image-stripped, size-bounded persistence with its 50 → 20 → remove fallback.
- **`ProxyShared`**, **`ChatRoute`**, **`TagsRoute`** (`proxy_shared.dfy`, `chat_route.dfy`, `tags_route.dfy`) cover `app/api/ollama/chat/route.ts` and `app/api/ollama/tags/route.ts`. Each route is a function from the address header and the upstream outcome to the upstream call, the response (status, body kind, headers) and the state of the abort timer. They share:
  - the one-slash cleanup of the address;
  - the ordered connection-error classifier;
  - the CORS preflight answer.
- **`ChatInput`** (`chat_input.dfy`) covers `app/components/ChatInput.tsx`:
  - the attachment list, at most four images;
  - the submit guard and the send button's disabled state;
  - what a submit hands to the store;
  - the Enter key.
- **`Language`** (`language.dfy`) covers `app/hooks/useLanguage.tsx`:
  - the two-level translation lookup;
  - the text direction;
  - the persisted language choice.
- **`Text`** and **`Common`** hold the runtime behaviour the code relies on:
  - JavaScript `trim` with its white-space set;
  - `includes`;
  - `split`/`join` on one character;
  - `slice(0, n)`;
  - decimal printing of a status code;
  - an `Option` type.

I/O becomes parameters:

- An answer from the network is a `Reply` (unreachable, or status and body).
- A proxy's upstream outcome is an `Upstream`: a response, a rejected fetch with its `name`/`code`/`message`, or an exception outside the guarded fetch.
- `JSON.parse` of a stream line is a function parameter `parse`.
- Whether a storage write fits the quota is a predicate parameter `fits`.
- Clock readings (conversation ids and creation times) are arguments.
- React state updates are applied one after another as pure transitions.

One behaviour of the code is worth knowing. The save effect for conversations does nothing for an empty list. So deleting the last conversation one by one leaves the previously stored list in place, and the next load shows it again (`ConversationStore.DeletedLastComesBack`). `clearAllConversations` removes the key and does not have this effect (`ConversationStore.ClearStaysCleared`). The model keeps the code's behaviour.

## Model

| member | source | states |
|---|---|---|
| OllamaClient.GetBaseUrl | app/lib/ollama.ts:29-35 | A non-empty stored address wins; otherwise the environment address, also outside a browser |
| OllamaClient.HasBaseUrlIff | app/lib/ollama.ts:29-54 | `hasBaseUrl` holds exactly when `getBaseUrl` returns a non-empty address; a build-time address always counts, and outside a browser it is the only one that does |
| OllamaClient.HasBaseUrl | app/lib/ollama.ts:43-49 | In a browser a stored or a build-time address counts; outside one only the build-time address (partner: HasBaseUrlIff) |
| OllamaClient.HasEnvUrl | app/lib/ollama.ts:52-54 | A build-time address is set (partner: HasBaseUrlIff) |
| OllamaClient.SetBaseUrl | app/lib/ollama.ts:37-41 | In a browser the address is written under its key; elsewhere nothing changes |
| OllamaClient.SetThenGetBaseUrl | app/lib/ollama.ts:29-41 | In a browser, after storing a non-empty address it is the one used, and storing the empty text falls back to the environment (outside a browser `setBaseUrl` does nothing, see SetBaseUrl) |
| OllamaClient.FetchModels | app/lib/ollama.ts:56-66 | A non-empty listing only comes from an ok reply carrying that list; an ok reply with a list yields it; everything else yields the empty list |
| OllamaClient.ListingImpliesConnected | app/lib/ollama.ts:141-148 | The connection check holds exactly for an ok reply; it is false when the server is unreachable; a non-empty listing implies it holds |
| OllamaClient.CheckConnection | app/lib/ollama.ts:141-148 | The server answered with a 2xx status; a rejected fetch is false (partner: ListingImpliesConnected) |
| OllamaClient.AnyOccurs | app/lib/ollama.ts:70-71 | `some(pattern => includes)`: true exactly when one of the patterns occurs in the name |
| OllamaClient.IsVisionModel | app/lib/ollama.ts:69-72 | True exactly when the lower-cased name contains one of the six vision patterns |
| OllamaClient.VisionModelProperties | app/lib/ollama.ts:69-72 | The heuristic ignores case; the empty name is not a vision model; any name embedding a pattern is |
| OllamaClient.DataUrlPayload | app/lib/ollama.ts:79-82 | The second comma-separated piece exists exactly when the data URL has a comma; it has no comma and sits right after the first comma |
| OllamaClient.FormatMessage | app/lib/ollama.ts:94-98 | A wire message keeps role and content, carries images only when the list is non-empty, and has no model tag |
| OllamaClient.FormatMessages | app/lib/ollama.ts:94-98 | Formatting keeps the count and order and applies the per-message rule at every index |
| OllamaClient.LineFragment | app/lib/ollama.ts:126-136 | A line yields a fragment exactly when it is not blank and parses to an object with non-empty `message.content`, which is the fragment |
| OllamaClient.DecodeLines | app/lib/ollama.ts:126-137 | At most one fragment per line, and no fragment is empty |
| OllamaClient.DecodeLinesAppend | app/lib/ollama.ts:128-137 | Lines are decoded independently and in order: decoding distributes over concatenation |
| OllamaClient.DecodeChunk | app/lib/ollama.ts:125-137 | The fragments of one chunk: its newline-separated lines decoded in order (partners: DecodeAlignedPrefix, StraddlingLineIsLost) |
| OllamaClient.DecodeChunks | app/lib/ollama.ts:121-138 | The fragments of all chunks, none of them empty |
| OllamaClient.DecodeAlignedPrefix | app/lib/ollama.ts:125-126 | A chunk ending in a newline decodes the same whether or not more text follows it |
| OllamaClient.AlignedChunksDecodeAsWhole | app/lib/ollama.ts:121-138 | When every chunk is empty or ends in a newline, chunk-by-chunk decoding equals decoding the whole body at once |
| OllamaClient.StraddlingLineIsLost | app/lib/ollama.ts:125-126 | A line split across two chunks is parsed as two pieces: its content is lost, though decoding the whole body would yield it |
| OllamaClient.StreamChat | app/lib/ollama.ts:89-139 | The request streams, names the model and carries the formatted messages. A failed request, a non-ok status or a missing reader ends the run with no fragment. Otherwise the fragments are the chunk-wise decoding, with an error exactly when reading failed |
| ConversationStore.StripImages | app/hooks/useOllama.ts:15-24 | Count, order and conversation fields are kept; every message keeps role and content and loses images and model tag |
| ConversationStore.StripImagesIdempotent | app/hooks/useOllama.ts:15-24 | Stripping leaves image-free lists unchanged, so stripping twice is stripping once |
| ConversationStore.StripImagesTake | app/hooks/useOllama.ts:57-59 | Stripping commutes with keeping the first n conversations |
| ConversationStore.Persist | app/hooks/useOllama.ts:54-75 | An empty list writes nothing. Otherwise the stripped first 50 are stored if they fit, else the stripped first 20, else the key is removed. The effect never leaves corrupt data |
| ConversationStore.PersistedIsBoundedStrippedPrefix | app/hooks/useOllama.ts:54-75 | What is stored is an image-free prefix of the stripped list, of at most 50 conversations (min(n,50) or min(n,20)), and a write that fits |
| ConversationStore.SmallListsStoreAllOrNothing | app/hooks/useOllama.ts:54-75 | With 1 to 20 conversations the effect stores all of them or removes the key |
| ConversationStore.PersistLastWriteWins | app/hooks/useOllama.ts:54-75 | For a non-empty list the result does not depend on what was stored before |
| ConversationStore.Hydrate | app/hooks/useOllama.ts:38-51 | A non-empty saved model is selected; a parseable saved list replaces the conversations; absent or corrupt data changes nothing |
| ConversationStore.PersistSelectedModel | app/hooks/useOllama.ts:78-82 | A non-empty selection is written; an empty one leaves the stored value |
| ConversationStore.ReloadRoundTrip | app/hooks/useOllama.ts:38-82 | For a non-empty list, a selected model and a write of the first 50 that fits, persisting then loading gives back the selected model and those 50 conversations without images |
| ConversationStore.ReplaceById | app/hooks/useOllama.ts:140-142 | Entries with the conversation's id are replaced by it; every other entry is kept in place |
| ConversationStore.ReplaceByIdTwice | app/hooks/useOllama.ts:140-168 | A later replacement under the same id overrides an earlier one, and ids stay in place |
| ConversationStore.ReplaceKeepsOthers | app/hooks/useOllama.ts:140-142 | Every entry under another id is still in the list after a replacement |
| ConversationStore.Show | app/hooks/useOllama.ts:139-142 | The conversation becomes current and replaces its entry; selection, models and flags are untouched |
| ConversationStore.CreateNewConversation | app/hooks/useOllama.ts:102-113 | A conversation titled "New Chat" with no messages, the selected model and the given id and time, put in front of the unchanged list and made current |
| ConversationStore.DeleteConversation | app/hooks/useOllama.ts:191-196 | Exactly the entries with that id disappear; current is cleared only when it has that id |
| ConversationStore.RemoveId | app/hooks/useOllama.ts:191 | The filter keeps exactly the conversations under another id |
| ConversationStore.RemoveIdAppend | app/hooks/useOllama.ts:191 | The filter keeps the order: it distributes over concatenation |
| ConversationStore.RemoveIdAbsent | app/hooks/useOllama.ts:191 | A list without that id is kept whole |
| ConversationStore.RemoveIdAll | app/hooks/useOllama.ts:191 | Removing an id that every entry carries leaves nothing |
| ConversationStore.DeleteUndoesCreate | app/hooks/useOllama.ts:191-196 | Deleting a conversation just created under a fresh id restores the list and clears current |
| ConversationStore.ClearAllConversations | app/hooks/useOllama.ts:198-202 | The list and current are emptied and the stored key removed; nothing else changes |
| ConversationStore.DeletedLastComesBack | app/hooks/useOllama.ts:38-75 | Deleting the last conversation leaves the list empty, the save effect then writes nothing, and the next load brings the deleted conversation back |
| ConversationStore.ClearStaysCleared | app/hooks/useOllama.ts:198-202 | After clearing, the persistence effect leaves the key removed |
| ConversationStore.LoadModels | app/hooks/useOllama.ts:84-96 | The connection flag follows the check. Models are replaced only when connected. The first model is selected only when connected, the list is non-empty and nothing was selected |
| ConversationStore.LoadModelsIdempotent | app/hooks/useOllama.ts:84-96 | Loading twice on the same replies is loading once |
| ConversationStore.LoadModelsKeepsChoice | app/hooks/useOllama.ts:84-96 | A chosen model survives every load; a selection made by the load is the first model of a listing from a connected server |
| ConversationStore.SendIgnored | app/hooks/useOllama.ts:116 | No model is selected, or there is neither text other than white space nor an image (partner: ChatInput.SubmittedIsNeverIgnored) |
| ConversationStore.UserMessage | app/hooks/useOllama.ts:123-127 | The user's text, or the image question when the text is empty; images only when there are some |
| ConversationStore.NextTitle | app/hooks/useOllama.ts:134-136 | On a conversation's first message: the image marker iff images, the first 30 characters of the text (or "Image analysis"), then "..."; later the title is kept |
| ConversationStore.Target | app/hooks/useOllama.ts:118-121 | The current conversation, or one created on demand |
| ConversationStore.StreamInto | app/hooks/useOllama.ts:145-169 | After the fragments the conversation shows the history plus one assistant message holding all the text received; with no fragment nothing changes |
| ConversationStore.StreamIntoAppend | app/hooks/useOllama.ts:145-169 | Streaming a first batch of fragments and then the rest ends where streaming them all at once does |
| ConversationStore.SettleAfterStream | app/hooks/useOllama.ts:145-188 | Streaming and then the error path leave the history followed by the reply tail: the full answer, the fixed apology (partial text discarded), or nothing |
| ConversationStore.SendMessage | app/hooks/useOllama.ts:115-189 | An ignored send changes nothing. Otherwise the target conversation gets the user message and the reply tail, replaces its entry, becomes current, and loading ends on every path |
| ConversationStore.SendMessageTranscript | app/hooks/useOllama.ts:115-189 | The shown transcript is the previous one, the user message and at most one assistant message. A conversation created on demand heads the list; other conversations stay |
| ProxyShared.CleanUrl | app/api/ollama/chat/route.ts:14 | One trailing slash is removed; an address without one is unchanged |
| ProxyShared.CleanUrlRemovesOneSlash | app/api/ollama/chat/route.ts:14 | Cleaning undoes appending one slash, and is not idempotent on a doubled slash |
| ProxyShared.ConnectionErrorMessage | app/api/ollama/chat/route.ts:73-84 | First matching rule wins: refused, unresolved host, "certificate" in the message, name-mismatch code, else the generic text |
| ProxyShared.ClassifiedMessagesNameTheUrl | app/api/ollama/chat/route.ts:73-84 | The four specific messages embed the cleaned address; the generic one embeds the error's message |
| ProxyShared.ConnectionErrorMessageNonEmpty | app/api/ollama/chat/route.ts:73-84 | The classified message is never empty |
| ProxyShared.Preflight | app/api/ollama/chat/route.ts:100-108 | `OPTIONS` answers 200 with no body, allowing any origin, the three methods and the address header |
| ChatRoute.PreflightAdmitsTheRelay | app/api/ollama/chat/route.ts:48-55 | The preflight answer allows the relay's origin and methods and the address header the client sends, which the relay's own header list lacks |
| ChatRoute.Post | app/api/ollama/chat/route.ts:1-98 | A missing header gives 400 with no call. A non-JSON body gives 500. Otherwise the cleaned address plus `/api/chat` is called with a 120 s timeout and the timer is always cleared. A non-ok status that `Response.json` accepts is relayed with its error text; 304 or a status outside 200 to 599 makes that call throw, which is answered 503 with the classified message; ok relays the body as NDJSON with CORS headers; an abort gives 504; another failure gives 503 with the classified message |
| ChatRoute.PostStatusTellsOutcome | app/api/ollama/chat/route.ts:1-98 | The status is a success exactly when the stream is relayed, which happens exactly for a configured header and an ok upstream; every other answer is a JSON error with non-empty text |
| ChatRoute.StatusError | app/api/ollama/chat/route.ts:37-42 | The throw of `Response.json` for a refused status: a `TypeError` within 200 to 599, a `RangeError` outside; never an abort, no code |
| ChatRoute.RelayedStatusIffAccepted | app/api/ollama/chat/route.ts:37-89 | An upstream error status is answered with itself exactly when `Response.json` accepts it; otherwise the answer is 503 with non-empty error text |
| TagsRoute.CaughtText | app/api/ollama/tags/route.ts:52-83 | An abort gives the timeout text, anything else the shared classifier |
| TagsRoute.Get | app/api/ollama/tags/route.ts:1-97 | Always status 200. The cleaned address plus `/api/tags` is called with a 10 s timeout and the timer is always cleared. Parsed JSON other than `null` is passed on unchanged with CORS headers; a `null` listing throws at the log line and is answered like a connection error; every failure becomes an error beside an empty model list |
| TagsRoute.GetNeverFails | app/api/ollama/tags/route.ts:1-97 | The listing is relayed exactly when the address is configured and the server answered ok with JSON other than `null`; otherwise the body carries an empty model list and a non-empty error |
| TagsRoute.TimeoutNamesTheUrl | app/api/ollama/tags/route.ts:55-63 | The timeout message embeds the cleaned address |
| TagsRoute.RoutesAgreeOnConnectionErrors | app/api/ollama/tags/route.ts:73-88 | For the same failure other than a timeout, both routes report the same text (503 from chat, 200 from tags) |
| TagsRoute.RoutesAgreeOnMissingUrl | app/api/ollama/tags/route.ts:6-11 | Both routes report a missing header with the same text (400 from chat, 200 from tags) |
| ChatInput.Accept | app/components/ChatInput.tsx:50-63 | Exactly the successfully converted images enter, each coming from an image file |
| ChatInput.AcceptAppend | app/components/ChatInput.tsx:50-63 | Files are accepted one by one in order: accepting distributes over concatenation |
| ChatInput.HandleFileUpload | app/components/ChatInput.tsx:45-66 | No file list changes nothing. Otherwise the list is a prefix of previous plus accepted, at most 4 long, min(4, total) long, and keeps the previous attachments as its start |
| ChatInput.AcceptNoImages | app/components/ChatInput.tsx:50-54 | A batch without images contributes nothing |
| ChatInput.UploadKeepsTheList | app/components/ChatInput.tsx:65 | A full list does not grow, and an upload of non-images changes nothing |
| ChatInput.RemoveFile | app/components/ChatInput.tsx:68-75 | Exactly the element at the index goes and the others keep their order; an index outside the list is an error |
| ChatInput.RemoveLastUndoesAppend | app/components/ChatInput.tsx:68-75 | Removing the file just appended gives the list back |
| ChatInput.CanSubmit | app/components/ChatInput.tsx:79 | Text other than white space or an attachment, not loading, connected (partner: SendDisabledIffRefused) |
| ChatInput.SendDisabled | app/components/ChatInput.tsx:203 | No text other than white space and no attachment, or loading, or disconnected (partner: SendDisabledIffRefused) |
| ChatInput.SendDisabledIffRefused | app/components/ChatInput.tsx:203 | The send button is disabled exactly when the submit guard refuses |
| ChatInput.HandleSubmit | app/components/ChatInput.tsx:77-87 | A send happens exactly when the guard holds. It sends the text (or the image question when empty) and the attachments' payloads in order, only when there are any, and empties the composer; otherwise nothing changes |
| ChatInput.HandleKeyDown | app/components/ChatInput.tsx:89-94 | Enter without Shift submits exactly when the guard holds; any other key, or Shift+Enter, changes nothing |
| ChatInput.SubmittedIsNeverIgnored | app/components/ChatInput.tsx:79-81 | Once a model is selected, the store never ignores what the composer sends |
| Language.Translate | app/hooks/useLanguage.tsx:151-153 | The language's non-empty entry, else the non-empty English entry, else the key |
| Language.TranslateFallsBack | app/hooks/useLanguage.tsx:151-153 | A non-empty key never translates to empty text; a language without a table reads like English; a key no table has shows as itself |
| Language.DirectionOf | app/hooks/useLanguage.tsx:135-136 | Right-to-left exactly for Arabic |
| Language.Apply | app/hooks/useLanguage.tsx:128-149 | The language and its direction are set on the state and on the document element |
| Language.Mount | app/hooks/useLanguage.tsx:128-133 | The saved language, or English when none or an empty one is saved, with its direction |
| Language.SetLanguage | app/hooks/useLanguage.tsx:145-149 | The language switches with its direction and is stored under its key |
| Language.ChoiceSurvivesReload | app/hooks/useLanguage.tsx:128-149 | A chosen language comes back with its direction after a reload; the empty text comes back as English |
| Language.LastChoiceWins | app/hooks/useLanguage.tsx:145-149 | Switching twice is switching to the second language |
| Text.ToLower | app/lib/ollama.ts:71 | Same length; no upper-case ASCII letter remains; every character is kept or is its upper-case letter lowered |
| Text.ToLowerIdempotent | app/lib/ollama.ts:71 | Lower-casing twice is lower-casing once |
| Text.Contains | app/lib/ollama.ts:71 | `includes`: true exactly when the pattern occurs at some position |
| Text.Trim | app/lib/ollama.ts:126 | `trim` yields the empty text exactly when the text is all white space; the result is bounded by non-white characters |
| Text.HasTextIff | app/components/ChatInput.tsx:79 | `trim()` is truthy exactly when some character is not white space |
| Text.JoinSplit | app/lib/ollama.ts:126 | Joining the pieces of `split` with the separator gives the text back |
| Text.SplitJoin | app/lib/ollama.ts:126 | Splitting undoes joining pieces that do not contain the separator |
| Text.SplitPieces | app/lib/ollama.ts:126 | No piece holds the separator; there is more than one piece exactly when it occurs; the first piece ends at the first separator |
| Text.ConcatAppend | app/hooks/useOllama.ts:153-154 | Accumulating the text of two batches of fragments is accumulating all of them |
| Text.DecimalRoundTrip | app/api/ollama/chat/route.ts:40 | The decimal text of a status code reads back as the same number |

## Left out

- Network I/O, `AbortController` timers and response streams are outcome datatypes. The 10 s and 120 s limits are constants on the upstream call; nothing models time.
- `TextDecoder` (UTF-8) is left out: chunks are already strings. `JSON.parse` of a stream line is the uninterpreted parameter `parse`. `JSON.stringify` of a request and the JSON parse of a proxy's upstream body are left out; a parse outcome is part of the upstream outcome.
- Browser storage quota is the predicate `fits`; real byte sizes are not modelled.
- `FileReader`, `URL.createObjectURL` and `revokeObjectURL` are left out: a file's conversion result is given with the file, and previews are opaque texts.
- React scheduling is left out (`useState` batching, `useEffect` ordering, `useCallback` stale closures); updates are applied in sequence. `setSelectedModel` and `setCurrentConversation` are plain setters, and the auto-resize and drag-state effects are presentation.
- `Date.now()` ids and `new Date()` timestamps are arguments.
- Text.ToLower: lower-cases ASCII letters only, not the full Unicode mapping of `toLowerCase`, because the vision patterns are ASCII.
- ConversationStore.NextTitle: `slice(0, 30)` counts characters, not UTF-16 code units, so a title cut inside a surrogate pair is not modelled.
- OllamaClient.StreamChat: the decoded fragments are delivered as one sequence, not interleaved with the store's updates; the store applies them in the same order.
- The diagnostics route (`app/api/ollama/diagnostics/route.ts`) is left out: it only performs DNS, URL-parse and timing calls.
- Presentation-only components, pages, layout and configuration are left out.
- The contents of the translation tables are left out: the lookup is modelled over any tables. `useLanguage` throwing outside its provider is React wiring.
- Multi-model fan-out and model toggling are left out: the hook keeps a single `selectedModel`.
- The proxies' console logging and the `cause` field of a fetch error are left out: they only feed logs. The one exception is the listing's success log line, which reads `data.models` and so throws on a JSON `null` listing; that throw is modelled (`TagsRoute.NullListingError`).
- The texts of the errors the JavaScript runtime throws (`TagsRoute.NullListingError`, `ChatRoute.StatusError`) are the ones Node.js produces; another runtime words them differently.
- ConversationStore.ReloadRoundTrip: stated only for a non-empty list, a selected model and a first write that fits; an empty list is not written at all (see DeletedLastComesBack), and smaller writes are covered by Persist and PersistedIsBoundedStrippedPrefix.
- ConversationStore.ReloadRoundTrip: the stored list is assumed to survive `JSON.stringify` and `JSON.parse` unchanged. In the source, `createdAt` is written as a `Date` and comes back as its ISO text, so the reloaded conversations differ from the persisted ones in that field's type; none of the modelled operations reads `createdAt`.

=== FILE: chat_input.dfy ===
/** The message composer: the list of attached images (at most four), the guard that decides
    whether a message may be sent, and what a send hands to the conversation store. */
module ChatInput {
  import opened Common
  import opened Text
  import ConversationStore

  const MaxFiles := 4
  const ImagePrefix := "image/"

  /** An attached image: its preview handle and its base64 payload. */
  datatype UploadedFile = UploadedFile(preview: string, base64: string)

  /** A file offered to the composer: its MIME type and what reading it gave (`None` when the
      conversion failed). */
  datatype IncomingFile = IncomingFile(mimeType: string, converted: Option<UploadedFile>)

  /** The composer's own state: the typed text and the attachments. */
  datatype Composer = Composer(input: string, files: seq<UploadedFile>)

  /** What a send passes on: the text and, when there are any, the images. */
  datatype Sent = Sent(text: string, images: Option<seq<string>>)

  /** `file.type.startsWith('image/')`. */
  predicate IsImage(f: IncomingFile) {
    ImagePrefix <= f.mimeType
  }

  /** The files that enter the list: images whose conversion succeeded, in their order. */
  function Accept(files: seq<IncomingFile>): (r: seq<UploadedFile>)
    ensures |r| <= |files|
    ensures forall u :: u in r ==> exists f :: f in files && IsImage(f) && f.converted == Some(u)
    ensures forall f :: f in files && IsImage(f) && f.converted.Some? ==> f.converted.value in r
    decreases |files|
  {
    if |files| == 0 then []
    else
      var rest := Accept(files[1..]);
      assert forall f :: f in files[1..] ==> f in files;
      assert forall f :: f in files ==> f == files[0] || f in files[1..];
      if IsImage(files[0]) && files[0].converted.Some? then [files[0].converted.value] + rest else rest
  }

  /** Accepting a batch in two parts is accepting it at once. */
  lemma {:induction false} AcceptAppend(a: seq<IncomingFile>, b: seq<IncomingFile>)
    ensures Accept(a + b) == Accept(a) + Accept(b)
    decreases |a|
  {
    if |a| == 0 {
      assert a + b == b;
    } else {
      assert (a + b)[1..] == a[1..] + b;
      AcceptAppend(a[1..], b);
    }
  }

  /** `handleFileUpload`: with no file list nothing happens; otherwise the accepted files are
      appended and the list cut to four. */
  function HandleFileUpload(prev: seq<UploadedFile>, files: Option<seq<IncomingFile>>): (r: seq<UploadedFile>)
    ensures files.None? ==> r == prev
    ensures files.Some? ==> |r| <= MaxFiles
    ensures files.Some? ==> r <= prev + Accept(files.value)
    ensures files.Some? && |prev| <= MaxFiles ==> prev <= r
    ensures files.Some? && |prev| >= MaxFiles ==> r == prev[..MaxFiles]
    ensures files.Some? ==> |r| == Min(MaxFiles, |prev| + |Accept(files.value)|)
  {
    match files
    case None => prev
    case Some(fs) => Take(prev + Accept(fs), MaxFiles)
  }

  /** A list that is already full does not change with an upload, and non-images never get in. */
  lemma UploadKeepsTheList(prev: seq<UploadedFile>, files: seq<IncomingFile>)
    ensures |prev| == MaxFiles ==> HandleFileUpload(prev, Some(files)) == prev
    ensures (forall i :: 0 <= i < |files| ==> !IsImage(files[i])) && |prev| <= MaxFiles ==>
      HandleFileUpload(prev, Some(files)) == prev
  {
    if forall i :: 0 <= i < |files| ==> !IsImage(files[i]) {
      AcceptNoImages(files);
      assert prev + [] == prev;
    }
  }

  /** A batch without images contributes nothing. */
  lemma {:induction false} AcceptNoImages(files: seq<IncomingFile>)
    requires forall i :: 0 <= i < |files| ==> !IsImage(files[i])
    ensures Accept(files) == []
    decreases |files|
  {
    if |files| > 0 {
      AcceptNoImages(files[1..]);
    }
  }

  /** `removeFile(index)`: the element at `index` goes and the rest keep their order. An index
      outside the list makes the update throw, which `None` stands for. */
  function RemoveFile(xs: seq<UploadedFile>, index: int): (r: Option<seq<UploadedFile>>)
    ensures r.Some? <==> 0 <= index < |xs|
    ensures r.Some? ==> |r.value| == |xs| - 1
    ensures r.Some? ==> forall j :: 0 <= j < index ==> r.value[j] == xs[j]
    ensures r.Some? ==> forall j :: index <= j < |r.value| ==> r.value[j] == xs[j + 1]
  {
    if 0 <= index < |xs| then Some(xs[..index] + xs[index + 1..]) else None
  }

  /** Removing after appending one file takes that file back off. */
  lemma RemoveLastUndoesAppend(xs: seq<UploadedFile>, u: UploadedFile)
    ensures RemoveFile(xs + [u], |xs|) == Some(xs)
  {
    assert (xs + [u])[..|xs|] == xs;
    assert (xs + [u])[|xs| + 1..] == [];
    assert xs + [] == xs;
  }

  /** The guard of `handleSubmit`: something to send, not busy, connected. */
  predicate CanSubmit(c: Composer, isLoading: bool, isConnected: bool) {
    (HasText(c.input) || |c.files| > 0) && !isLoading && isConnected
  }

  /** The send button's `disabled` expression. */
  predicate SendDisabled(c: Composer, isLoading: bool, isConnected: bool) {
    (!HasText(c.input) && |c.files| == 0) || isLoading || !isConnected
  }

  /** The button is disabled exactly when a submit would be refused. */
  lemma SendDisabledIffRefused(c: Composer, isLoading: bool, isConnected: bool)
    ensures SendDisabled(c, isLoading, isConnected) <==> !CanSubmit(c, isLoading, isConnected)
  {
  }

  /** `handleSubmit`: when the guard holds, the text (or the image question when it is empty)
      and the images (only when there are any) are sent and the composer is emptied; otherwise
      nothing happens. */
  function HandleSubmit(c: Composer, isLoading: bool, isConnected: bool): (r: (Composer, Option<Sent>))
    ensures r.1.Some? <==> CanSubmit(c, isLoading, isConnected)
    ensures r.1.None? ==> r.0 == c
    ensures r.1.Some? ==> r.0 == Composer([], [])
    ensures r.1.Some? && c.input != [] ==> r.1.value.text == c.input
    ensures r.1.Some? && c.input == [] ==> r.1.value.text == ConversationStore.ImageQuestion
    ensures r.1.Some? ==> (r.1.value.images.Some? <==> |c.files| > 0)
    ensures r.1.Some? && r.1.value.images.Some? ==>
      |r.1.value.images.value| == |c.files|
      && forall i :: 0 <= i < |c.files| ==> r.1.value.images.value[i] == c.files[i].base64
  {
    if CanSubmit(c, isLoading, isConnected) then
      var images := seq(|c.files|, i requires 0 <= i < |c.files| => c.files[i].base64);
      var text := if c.input != [] then c.input else ConversationStore.ImageQuestion;
      (Composer([], []), Some(Sent(text, if |images| > 0 then Some(images) else None)))
    else (c, None)
  }

  /** `handleKeyDown`: Enter without Shift submits; any other key leaves everything alone. */
  function HandleKeyDown(key: string, shift: bool, c: Composer, isLoading: bool, isConnected: bool): (r: (Composer, Option<Sent>))
    ensures r.1.Some? <==> key == "Enter" && !shift && CanSubmit(c, isLoading, isConnected)
    ensures r.1.None? ==> r.0 == c
    ensures r.1.Some? ==> r == HandleSubmit(c, isLoading, isConnected)
  {
    if key == "Enter" && !shift then HandleSubmit(c, isLoading, isConnected) else (c, None)
  }

  /** Whatever the composer sends, the conversation store acts on once a model is selected:
      the guard of `sendMessage` never discards a message the composer let through. */
  lemma SubmittedIsNeverIgnored(c: Composer, isLoading: bool, isConnected: bool, s: ConversationStore.State)
    requires s.selectedModel != []
    ensures var sent := HandleSubmit(c, isLoading, isConnected).1;
      sent.Some? ==> !ConversationStore.SendIgnored(s, sent.value.text, sent.value.images)
  {
    var sent := HandleSubmit(c, isLoading, isConnected).1;
    if sent.Some? && HasText(c.input) {
      assert sent.value.text == c.input;
    }
  }
}

=== FILE: chat_route.dfy ===
/** The chat proxy: `POST` forwards the chat request to the configured Ollama server and relays
    its streamed answer, turning every failure into a JSON error with its own status. */
module ChatRoute {
  import opened Common
  import opened Text
  import opened ProxyShared

  const ChatSuffix := "/api/chat"
  const ChatTimeoutMs := 120000
  const TimeoutText := "Ollama server timeout. The request took too long."

  /** The headers of the relayed stream. */
  const StreamHeaders: map<string, string> := CorsHeaders["Content-Type" := "application/x-ndjson"]

  function ErrorResponse<D>(status: nat, error: string): Response<D> {
    Response(status, ErrorJson(error, false), JsonHeaders)
  }

  /** The statuses `Response.json` accepts for an error answer: within 200 to 599, and not
      304, which may not carry a body. */
  predicate RelayableStatus(status: nat) {
    200 <= status <= 599 && status != 304
  }

  const RangeErrorText := "init[\"status\"] must be in the range of 200 to 599, inclusive."

  /** What `Response.json` throws when asked to answer with a status it refuses: a `RangeError`
      outside 200 to 599, a `TypeError` for a status that may not carry a body. The texts are
      the runtime's. */
  function StatusError(status: nat): (e: FetchError)
    ensures e.name != AbortErrorName && e.code == None && e.message.Some?
    ensures 200 <= status <= 599 <==> e.name == "TypeError"
  {
    if 200 <= status <= 599 then
      FetchError("TypeError", None, Some("Response constructor: Invalid response status code " + NatToString(status)))
    else
      FetchError("RangeError", None, Some(RangeErrorText))
  }

  /** The request forwarded for a configured address. */
  function ChatUpstreamRequest(header: string): (q: UpstreamRequest)
    ensures q.url == CleanUrl(header) + ChatSuffix && q.verb == "POST" && q.timeoutMs == ChatTimeoutMs
  {
    UpstreamRequest(CleanUrl(header) + ChatSuffix, "POST", ChatTimeoutMs)
  }

  /** `POST` given the address header and what happened upstream. `Unexpected` stands for the
      incoming body not being JSON, which is read before the timer is set. An upstream error
      status is relayed only when `Response.json` accepts it; otherwise the throw is answered
      like a connection failure. */
  function Post<D>(header: Option<string>, upstream: Upstream<D>): (r: Handled<D>)
    ensures r.timer != Armed
    ensures r.call.Some? <==> r.timer == Cleared
    ensures MissingUrl(header) ==>
      r.call.None? && r.response == ErrorResponse(400, MissingUrlText)
    ensures !MissingUrl(header) && upstream.Unexpected? ==>
      r.call.None? && r.response == ErrorResponse(500, "Internal server error: " + Display(upstream.message))
    ensures !MissingUrl(header) && !upstream.Unexpected? ==> r.call == Some(ChatUpstreamRequest(header.value))
    ensures !MissingUrl(header) && upstream.Responded? && !IsOk(upstream.status) && RelayableStatus(upstream.status) ==>
      r.response == ErrorResponse(upstream.status, "Ollama server error: " + NatToString(upstream.status))
    ensures !MissingUrl(header) && upstream.Responded? && !IsOk(upstream.status) && !RelayableStatus(upstream.status) ==>
      r.response == ErrorResponse(503, ConnectionErrorMessage(CleanUrl(header.value), StatusError(upstream.status)))
    ensures !MissingUrl(header) && upstream.Responded? && IsOk(upstream.status) ==>
      r.response == Response(200, Passthrough(upstream.body), StreamHeaders)
    ensures !MissingUrl(header) && upstream.Rejected? && upstream.error.name == AbortErrorName ==>
      r.response == ErrorResponse(504, TimeoutText)
    ensures !MissingUrl(header) && upstream.Rejected? && upstream.error.name != AbortErrorName ==>
      r.response == ErrorResponse(503, ConnectionErrorMessage(CleanUrl(header.value), upstream.error))
  {
    if MissingUrl(header) then
      Handled(None, ErrorResponse(400, MissingUrlText), NotArmed)
    else
      match upstream
      case Unexpected(message) =>
        Handled(None, ErrorResponse(500, "Internal server error: " + Display(message)), NotArmed)
      case Responded(status, body) =>
        if !IsOk(status) && RelayableStatus(status) then
          Handled(Some(ChatUpstreamRequest(header.value)), ErrorResponse(status, "Ollama server error: " + NatToString(status)), Cleared)
        else if !IsOk(status) then
          // The error answer cannot be built, and the guarded block's handler classifies the throw.
          Handled(Some(ChatUpstreamRequest(header.value)), ErrorResponse(503, ConnectionErrorMessage(CleanUrl(header.value), StatusError(status))), Cleared)
        else
          Handled(Some(ChatUpstreamRequest(header.value)), Response(200, Passthrough(body), StreamHeaders), Cleared)
      case Rejected(e) =>
        var text := if e.name == AbortErrorName then TimeoutText else ConnectionErrorMessage(CleanUrl(header.value), e);
        Handled(Some(ChatUpstreamRequest(header.value)), ErrorResponse(if e.name == AbortErrorName then 504 else 503, text), Cleared)
  }

  /** A success status comes with the relayed stream and nothing else; every other answer is a
      JSON error whose text is not empty. */
  lemma PostStatusTellsOutcome<D>(header: Option<string>, upstream: Upstream<D>)
    ensures var r := Post(header, upstream).response;
      IsOk(r.status) <==> r.body.Passthrough?
    ensures var r := Post(header, upstream).response;
      r.body.Passthrough? <==> !MissingUrl(header) && upstream.Responded? && IsOk(upstream.status)
    ensures var r := Post(header, upstream).response;
      !r.body.Passthrough? ==> r.body.ErrorJson? && r.body.error != []
  {
    var r := Post(header, upstream).response;
    if !MissingUrl(header) && upstream.Rejected? && upstream.error.name != AbortErrorName {
      ConnectionErrorMessageNonEmpty(CleanUrl(header.value), upstream.error);
    } else if !MissingUrl(header) && upstream.Responded? && !IsOk(upstream.status) && !RelayableStatus(upstream.status) {
      ConnectionErrorMessageNonEmpty(CleanUrl(header.value), StatusError(upstream.status));
    }
  }

  /** An upstream error status comes back unchanged exactly when `Response.json` accepts it; a
      304 or a status outside 200 to 599 becomes a 503 carrying a non-empty error text. */
  lemma RelayedStatusIffAccepted<D>(header: string, status: nat, body: D)
    requires header != [] && !IsOk(status)
    ensures var r := Post(Some(header), Responded(status, body)).response;
      (r.status == status <==> RelayableStatus(status))
      && (!RelayableStatus(status) ==> r.status == 503 && r.body.ErrorJson? && r.body.error != [])
  {
    if !RelayableStatus(status) {
      ConnectionErrorMessageNonEmpty(CleanUrl(header), StatusError(status));
    }
  }

  /** The preflight answer admits what the relay then answers with: the same origin and
      methods, and the address header the client sends, which the relay's own list lacks. */
  lemma PreflightAdmitsTheRelay()
    ensures var p := Preflight().headers;
      p[AllowOriginName] == StreamHeaders[AllowOriginName]
      && p[AllowMethodsName] == StreamHeaders[AllowMethodsName]
      && Contains(p[AllowHeadersName], UrlHeader)
      && StreamHeaders[AllowHeadersName] == "Content-Type"
  {
  }
}

=== FILE: common.dfy ===
/** Small shared vocabulary: an optional value, the success test of an HTTP status and
    integer helpers. */
module Common {

  /** A value that may be absent (JavaScript's `undefined`/`null`). */
  datatype Option<+T> = None | Some(value: T) {

    /** The value, or `default` when absent. */
    function GetOr(default: T): T {
      match this
      case Some(v) => v
      case None => default
    }
  }

  /** `response.ok`: a status in the 2xx range. */
  predicate IsOk(status: nat) {
    200 <= status <= 299
  }

  function Min(a: int, b: int): (r: int)
    ensures r <= a && r <= b
    ensures r == a || r == b
  {
    if a <= b then a else b
  }

  /** `xs.slice(0, n)` for a non-negative `n`: the first `n` elements, or all of them. */
  function Take<T>(xs: seq<T>, n: nat): (r: seq<T>)
    ensures |r| == Min(n, |xs|)
    ensures r <= xs
  {
    if n <= |xs| then xs[..n] else xs
  }
}

=== FILE: conversation_store.dfy ===
/** The conversation store of the chat hook: its state record, the pure transitions behind
    `createNewConversation`, `sendMessage`, `deleteConversation`, `clearAllConversations` and
    `loadModels`, and the image-stripped, size-bounded persistence of the conversation list.

    React state updates are applied one after another; the clock, the network replies and the
    storage quota are parameters. */
module ConversationStore {
  import opened Common
  import opened Text
  import opened OllamaClient

  datatype Conversation = Conversation(id: string, title: string, messages: seq<ChatMessage>, model: string, createdAt: int)

  /** The hook's state. `current` is a copy of the conversation shown, as in the hook. */
  datatype State = State(
    conversations: seq<Conversation>,
    current: Option<Conversation>,
    selectedModel: string,
    models: seq<OllamaModel>,
    isConnected: bool,
    isLoading: bool)

  /** The value under the conversations storage key: absent, not parseable as JSON, or a list. */
  datatype Slot = Absent | Corrupt | Holds(conversations: seq<Conversation>)

  const MaxStoredConversations := 50
  const ReducedStoredConversations := 20
  const ConversationsKey := "ollama_conversations"
  const SelectedModelKey := "ollama_selected_model"
  const NewChatTitle := "New Chat"
  const ImageQuestion := "What is in this image?"
  const ImageTitle := "Image analysis"
  const ImageMarker := "\U{1F5BC}\U{FE0F} "
  const TitleLength := 30
  const ErrorReply := "Sorry, there was an error processing your request. Please check your Ollama connection."

  const Initial := State([], None, [], [], false, false)

  // ---------------------------------------------------------------------------------------
  // Image stripping and persistence

  /** A message as stored: role and content only. */
  function StripMessage(m: ChatMessage): ChatMessage {
    ChatMessage(m.role, m.content, None, None)
  }

  /** Conversation fields other than the messages agree. */
  predicate SameHeader(a: Conversation, b: Conversation) {
    a.id == b.id && a.title == b.title && a.model == b.model && a.createdAt == b.createdAt
  }

  /** Every message of every conversation is role and content only. */
  predicate ImageFree(cs: seq<Conversation>) {
    forall i, j :: 0 <= i < |cs| && 0 <= j < |cs[i].messages| ==>
      cs[i].messages[j].images.None? && cs[i].messages[j].model.None?
  }

  /** `stripImagesFromConversations`. */
  function StripImages(cs: seq<Conversation>): (r: seq<Conversation>)
    ensures |r| == |cs|
    ensures forall i :: 0 <= i < |cs| ==> SameHeader(r[i], cs[i]) && |r[i].messages| == |cs[i].messages|
    ensures forall i, j :: 0 <= i < |cs| && 0 <= j < |cs[i].messages| ==>
      r[i].messages[j].role == cs[i].messages[j].role && r[i].messages[j].content == cs[i].messages[j].content
    ensures ImageFree(r)
  {
    seq(|cs|, i requires 0 <= i < |cs| =>
      cs[i].(messages := seq(|cs[i].messages|, j requires 0 <= j < |cs[i].messages| => StripMessage(cs[i].messages[j]))))
  }

  /** Stripping keeps what is already stripped, so applying it twice is applying it once. */
  lemma StripImagesIdempotent(cs: seq<Conversation>)
    ensures ImageFree(cs) ==> StripImages(cs) == cs
    ensures StripImages(StripImages(cs)) == StripImages(cs)
  {
    forall cs': seq<Conversation> | ImageFree(cs') ensures StripImages(cs') == cs' {
      var r := StripImages(cs');
      forall i | 0 <= i < |cs'| ensures r[i] == cs'[i] {
        assert r[i].messages == cs'[i].messages;
      }
    }
  }

  /** Stripping commutes with keeping a prefix. */
  lemma StripImagesTake(cs: seq<Conversation>, n: nat)
    ensures StripImages(Take(cs, n)) == Take(StripImages(cs), n)
  {
  }

  /** The persistence effect on the conversations slot. `fits` says whether a write of that
      list succeeds; the effect never fails. */
  function Persist(slot: Slot, cs: seq<Conversation>, fits: seq<Conversation> -> bool): (r: Slot)
    ensures |cs| == 0 ==> r == slot
    ensures |cs| > 0 ==> r != Corrupt
    ensures |cs| > 0 && fits(StripImages(Take(cs, MaxStoredConversations))) ==>
      r == Holds(StripImages(Take(cs, MaxStoredConversations)))
    ensures |cs| > 0 && !fits(StripImages(Take(cs, MaxStoredConversations))) ==>
      (fits(StripImages(Take(cs, ReducedStoredConversations))) ==>
        r == Holds(StripImages(Take(cs, ReducedStoredConversations))))
    ensures |cs| > 0 && !fits(StripImages(Take(cs, MaxStoredConversations))) ==>
      (!fits(StripImages(Take(cs, ReducedStoredConversations))) ==> r == Absent)
  {
    if |cs| == 0 then slot
    else
      var first := StripImages(Take(cs, MaxStoredConversations));
      if fits(first) then Holds(first)
      else
        var second := StripImages(Take(cs, ReducedStoredConversations));
        if fits(second) then Holds(second) else Absent
  }

  /** Whatever the effect stores is an image-free prefix of the list, of at most 50
      conversations, and a write that fits. */
  lemma PersistedIsBoundedStrippedPrefix(slot: Slot, cs: seq<Conversation>, fits: seq<Conversation> -> bool)
    requires |cs| > 0
    ensures var r := Persist(slot, cs, fits);
      r.Holds? ==>
        && |r.conversations| <= MaxStoredConversations
        && (|r.conversations| == Min(|cs|, MaxStoredConversations) || |r.conversations| == Min(|cs|, ReducedStoredConversations))
        && ImageFree(r.conversations)
        && r.conversations <= StripImages(cs)
        && fits(r.conversations)
  {
    StripImagesTake(cs, MaxStoredConversations);
    StripImagesTake(cs, ReducedStoredConversations);
  }

  /** With at most 20 conversations both attempts write the same list, so the effect either
      stores all of them or removes the key. */
  lemma SmallListsStoreAllOrNothing(slot: Slot, cs: seq<Conversation>, fits: seq<Conversation> -> bool)
    requires 0 < |cs| <= ReducedStoredConversations
    ensures Persist(slot, cs, fits) == Holds(StripImages(cs)) || Persist(slot, cs, fits) == Absent
  {
  }

  /** The write depends only on the list when it is non-empty: the previous slot is
      overwritten (last write wins). */
  lemma PersistLastWriteWins(a: Slot, b: Slot, cs: seq<Conversation>, fits: seq<Conversation> -> bool)
    requires |cs| > 0
    ensures Persist(a, cs, fits) == Persist(b, cs, fits)
  {
  }

  /** The load effect on mount: a non-empty saved model is selected, and a parseable saved
      list replaces the conversations. */
  function Hydrate(s: State, savedModel: Option<string>, slot: Slot): (r: State)
    ensures savedModel.Some? && savedModel.value != [] ==> r.selectedModel == savedModel.value
    ensures !(savedModel.Some? && savedModel.value != []) ==> r.selectedModel == s.selectedModel
    ensures slot.Holds? ==> r.conversations == slot.conversations
    ensures !slot.Holds? ==> r.conversations == s.conversations
    ensures r.current == s.current && r.models == s.models && r.isLoading == s.isLoading
    ensures r.isConnected == s.isConnected
  {
    var s1 := if savedModel.Some? && savedModel.value != [] then s.(selectedModel := savedModel.value) else s;
    match slot
    case Holds(cs) => s1.(conversations := cs)
    case _ => s1
  }

  /** The selected-model effect: a non-empty selection is written, an empty one is not. */
  function PersistSelectedModel(saved: Option<string>, selected: string): (r: Option<string>)
    ensures selected != [] ==> r == Some(selected)
    ensures selected == [] ==> r == saved
  {
    if selected != [] then Some(selected) else saved
  }

  /** Reloading what was persisted gives back the first conversations without their images,
      and the selected model, reading the stored list back as it was written. */
  lemma ReloadRoundTrip(s: State, savedModel: Option<string>, slot: Slot, fits: seq<Conversation> -> bool)
    requires s.selectedModel != [] && |s.conversations| > 0
    requires fits(StripImages(Take(s.conversations, MaxStoredConversations)))
    ensures var r := Hydrate(Initial, PersistSelectedModel(savedModel, s.selectedModel), Persist(slot, s.conversations, fits));
      && r.selectedModel == s.selectedModel
      && r.conversations == Take(StripImages(s.conversations), MaxStoredConversations)
      && (|s.conversations| <= MaxStoredConversations ==> |r.conversations| == |s.conversations|)
  {
    StripImagesTake(s.conversations, MaxStoredConversations);
  }

  // ---------------------------------------------------------------------------------------
  // Transitions

  /** Every entry with the id of `c` replaced by `c`; the others are kept in order. */
  function ReplaceById(cs: seq<Conversation>, c: Conversation): (r: seq<Conversation>)
    ensures |r| == |cs|
    ensures forall i :: 0 <= i < |cs| ==> r[i] == (if cs[i].id == c.id then c else cs[i])
  {
    seq(|cs|, i requires 0 <= i < |cs| => if cs[i].id == c.id then c else cs[i])
  }

  /** A later replacement under the same id overrides an earlier one, and replacement keeps the
      ids in place. */
  lemma ReplaceByIdTwice(cs: seq<Conversation>, a: Conversation, b: Conversation)
    requires a.id == b.id
    ensures ReplaceById(ReplaceById(cs, a), b) == ReplaceById(cs, b)
    ensures forall i :: 0 <= i < |cs| ==> ReplaceById(cs, a)[i].id == cs[i].id
  {
  }

  /** Show `c`: it becomes current and replaces its entry in the list. */
  function Show(s: State, c: Conversation): (r: State)
    ensures r.current == Some(c) && r.conversations == ReplaceById(s.conversations, c)
    ensures r.selectedModel == s.selectedModel && r.models == s.models
    ensures r.isConnected == s.isConnected && r.isLoading == s.isLoading
  {
    s.(current := Some(c), conversations := ReplaceById(s.conversations, c))
  }

  /** `createNewConversation()`, with the clock reading passed in. */
  function CreateNewConversation(s: State, id: string, createdAt: int): (r: (State, Conversation))
    ensures var (s', c) := r;
      && c == Conversation(id, NewChatTitle, [], s.selectedModel, createdAt)
      && s'.conversations == [c] + s.conversations
      && s'.current == Some(c)
      && s'.selectedModel == s.selectedModel && s'.models == s.models
      && s'.isConnected == s.isConnected && s'.isLoading == s.isLoading
  {
    var c := Conversation(id, NewChatTitle, [], s.selectedModel, createdAt);
    (s.(conversations := [c] + s.conversations, current := Some(c)), c)
  }

  /** `deleteConversation(id)`. */
  function DeleteConversation(s: State, id: string): (r: State)
    ensures forall c :: c in r.conversations ==> c in s.conversations && c.id != id
    ensures forall c :: c in s.conversations && c.id != id ==> c in r.conversations
    ensures r.conversations == RemoveId(s.conversations, id)
    ensures s.current.Some? && s.current.value.id == id ==> r.current == None
    ensures !(s.current.Some? && s.current.value.id == id) ==> r.current == s.current
    ensures r.selectedModel == s.selectedModel && r.models == s.models
    ensures r.isConnected == s.isConnected && r.isLoading == s.isLoading
  {
    var kept := RemoveId(s.conversations, id);
    if s.current.Some? && s.current.value.id == id then s.(conversations := kept, current := None)
    else s.(conversations := kept)
  }

  /** `cs.filter(c => c.id !== id)`. */
  function RemoveId(cs: seq<Conversation>, id: string): (r: seq<Conversation>)
    ensures |r| <= |cs|
    ensures forall c :: c in r <==> c in cs && c.id != id
    decreases |cs|
  {
    if |cs| == 0 then []
    else if cs[0].id == id then RemoveId(cs[1..], id)
    else [cs[0]] + RemoveId(cs[1..], id)
  }

  /** Removal keeps the order: it distributes over concatenation. */
  lemma {:induction false} RemoveIdAppend(a: seq<Conversation>, b: seq<Conversation>, id: string)
    ensures RemoveId(a + b, id) == RemoveId(a, id) + RemoveId(b, id)
    decreases |a|
  {
    if |a| == 0 {
      assert a + b == b;
    } else {
      assert (a + b)[0] == a[0] && (a + b)[1..] == a[1..] + b;
      RemoveIdAppend(a[1..], b, id);
      if a[0].id != id {
        assert [a[0]] + (RemoveId(a[1..], id) + RemoveId(b, id)) == [a[0]] + RemoveId(a[1..], id) + RemoveId(b, id);
      }
    }
  }

  /** A list that lacks the id is kept whole. */
  lemma {:induction false} RemoveIdAbsent(a: seq<Conversation>, id: string)
    requires forall i :: 0 <= i < |a| ==> a[i].id != id
    ensures RemoveId(a, id) == a
    decreases |a|
  {
    if |a| > 0 {
      RemoveIdAbsent(a[1..], id);
      assert [a[0]] + a[1..] == a;
    }
  }

  /** A list whose entries all carry the id is removed entirely. */
  lemma {:induction false} RemoveIdAll(a: seq<Conversation>, id: string)
    requires forall i :: 0 <= i < |a| ==> a[i].id == id
    ensures RemoveId(a, id) == []
    decreases |a|
  {
    if |a| > 0 {
      RemoveIdAll(a[1..], id);
    }
  }

  /** Deleting a conversation that was just created under a fresh id restores the list and
      clears the current conversation. */
  lemma DeleteUndoesCreate(s: State, id: string, createdAt: int)
    requires forall i :: 0 <= i < |s.conversations| ==> s.conversations[i].id != id
    ensures var r := DeleteConversation(CreateNewConversation(s, id, createdAt).0, id);
      r.conversations == s.conversations && r.current == None
  {
    var (s', c) := CreateNewConversation(s, id, createdAt);
    RemoveIdAppend([c], s.conversations, id);
    RemoveIdAbsent(s.conversations, id);
    assert RemoveId([c], id) == [];
  }

  /** `clearAllConversations()`: the list and the current conversation are emptied and the
      storage key is removed. */
  function ClearAllConversations(s: State): (r: (State, Slot))
    ensures r.0.conversations == [] && r.0.current == None && r.1 == Absent
    ensures r.0.selectedModel == s.selectedModel && r.0.models == s.models
    ensures r.0.isConnected == s.isConnected && r.0.isLoading == s.isLoading
  {
    (s.(conversations := [], current := None), Absent)
  }

  /** After clearing, the persistence effect leaves the key removed. */
  lemma ClearStaysCleared(s: State, fits: seq<Conversation> -> bool)
    ensures var (s', slot) := ClearAllConversations(s); Persist(slot, s'.conversations, fits) == Absent
  {
  }

  /** Deleting the last conversation empties the list, but the persistence effect skips an
      empty list, so the conversation that was stored comes back on the next load. Clearing, by
      contrast, removes the key (ClearStaysCleared). */
  lemma {:induction false} DeletedLastComesBack(s: State, id: string, slot: Slot, fits: seq<Conversation> -> bool)
    requires |s.conversations| > 0 && forall i :: 0 <= i < |s.conversations| ==> s.conversations[i].id == id
    requires fits(StripImages(Take(s.conversations, MaxStoredConversations)))
    ensures var stored := Persist(slot, s.conversations, fits);
      var s' := DeleteConversation(s, id);
      && s'.conversations == []
      && Persist(stored, s'.conversations, fits) == stored
      && Hydrate(Initial, None, Persist(stored, s'.conversations, fits)).conversations
         == Take(StripImages(s.conversations), MaxStoredConversations)
  {
    RemoveIdAll(s.conversations, id);
    StripImagesTake(s.conversations, MaxStoredConversations);
  }

  /** `loadModels()` given the replies to the connection check and to the listing. */
  function LoadModels(s: State, check: Reply<TagsBody>, listing: Reply<TagsBody>): (r: State)
    ensures r.isConnected == CheckConnection(check)
    ensures !r.isConnected ==> r.models == s.models && r.selectedModel == s.selectedModel
    ensures r.isConnected ==> r.models == FetchModels(listing)
    ensures r.isConnected && |r.models| > 0 && s.selectedModel == [] ==> r.selectedModel == r.models[0].name
    ensures !(r.isConnected && |r.models| > 0 && s.selectedModel == []) ==> r.selectedModel == s.selectedModel
    ensures r.conversations == s.conversations && r.current == s.current && r.isLoading == s.isLoading
  {
    var connected := CheckConnection(check);
    var s1 := s.(isConnected := connected);
    if !connected then s1
    else
      var ms := FetchModels(listing);
      var s2 := s1.(models := ms);
      if |ms| > 0 && s.selectedModel == [] then s2.(selectedModel := ms[0].name) else s2
  }

  /** Loading again on the same replies changes nothing more. */
  lemma LoadModelsIdempotent(s: State, check: Reply<TagsBody>, listing: Reply<TagsBody>)
    ensures LoadModels(LoadModels(s, check, listing), check, listing) == LoadModels(s, check, listing)
  {
  }

  /** A model already chosen survives every load; otherwise the selection is empty or the first
      model listed. */
  lemma LoadModelsKeepsChoice(s: State, check: Reply<TagsBody>, listing: Reply<TagsBody>)
    ensures s.selectedModel != [] ==> LoadModels(s, check, listing).selectedModel == s.selectedModel
    ensures var r := LoadModels(s, check, listing);
      s.selectedModel == [] && r.selectedModel != [] ==>
        CheckConnection(check) && |FetchModels(listing)| > 0 && r.selectedModel == FetchModels(listing)[0].name
  {
  }

  // ---------------------------------------------------------------------------------------
  // Sending

  predicate HasImages(images: Option<seq<string>>) {
    images.Some? && |images.value| > 0
  }

  /** The guard at the top of `sendMessage`: no model, or nothing to send. */
  predicate SendIgnored(s: State, content: string, images: Option<seq<string>>) {
    s.selectedModel == [] || (!HasText(content) && !HasImages(images))
  }

  /** The user's message: the text, or the image question when it is empty; images only when
      there are some. */
  function UserMessage(content: string, images: Option<seq<string>>): (m: ChatMessage)
    ensures m.role == User && m.model == None
    ensures content != [] ==> m.content == content
    ensures content == [] ==> m.content == ImageQuestion
    ensures m.images.Some? <==> HasImages(images)
    ensures m.images.Some? ==> m.images == images
  {
    ChatMessage(User, if content == [] then ImageQuestion else content, if HasImages(images) then images else None, None)
  }

  function AssistantMessage(content: string): ChatMessage {
    ChatMessage(Assistant, content, None, None)
  }

  /** The title after the first send: image marker if images, then at most 30 characters of the
      text (or of the image title), then an ellipsis. Later sends keep the title. */
  function NextTitle(conv: Conversation, content: string, images: Option<seq<string>>): (t: string)
    ensures |conv.messages| > 0 ==> t == conv.title
    ensures |conv.messages| == 0 ==> exists lead: string, body: string ::
      && t == lead + body + "..."
      && (lead == ImageMarker <==> HasImages(images)) && (lead == [] <==> !HasImages(images))
      && body <= (if content == [] then ImageTitle else content)
      && |body| == Min(TitleLength, |if content == [] then ImageTitle else content|)
  {
    if |conv.messages| == 0 then
      var lead := if HasImages(images) then ImageMarker else [];
      var body := Take(if content == [] then ImageTitle else content, TitleLength);
      lead + body + "..."
    else conv.title
  }

  /** The streaming updates: after each fragment the conversation shows the history followed
      by one assistant message holding everything received so far. */
  function StreamInto(s: State, conv: Conversation, history: seq<ChatMessage>, acc: string, fragments: seq<string>): (r: State)
    ensures |fragments| == 0 ==> r == s
    ensures |fragments| > 0 ==> r == Show(s, conv.(messages := history + [AssistantMessage(acc + Concat(fragments))]))
    decreases |fragments|
  {
    if |fragments| == 0 then s
    else
      var acc' := acc + fragments[0];
      var shown := conv.(messages := history + [AssistantMessage(acc')]);
      var r := StreamInto(Show(s, shown), conv, history, acc', fragments[1..]);
      var final := conv.(messages := history + [AssistantMessage(acc + Concat(fragments))]);
      assert acc' + Concat(fragments[1..]) == acc + Concat(fragments);
      assert |fragments| == 1 ==> shown == final by {
        if |fragments| == 1 {
          assert Concat(fragments[1..]) == [];
          assert acc' + [] == acc';
        }
      }
      ReplaceByIdTwice(s.conversations, shown, final);
      r
  }

  /** Fragments may arrive in any batching: streaming a first batch and then the rest, with
      the text received so far carried over, ends where streaming them all at once does. */
  lemma {:induction false} StreamIntoAppend(s: State, conv: Conversation, history: seq<ChatMessage>, acc: string,
                                            first: seq<string>, rest: seq<string>)
    ensures StreamInto(StreamInto(s, conv, history, acc, first), conv, history, acc + Concat(first), rest)
      == StreamInto(s, conv, history, acc, first + rest)
  {
    if |first| == 0 {
      assert first + rest == rest;
      assert acc + [] == acc;
    } else if |rest| == 0 {
      assert first + rest == first;
    } else {
      ConcatAppend(first, rest);
      assert acc + Concat(first) + Concat(rest) == acc + Concat(first + rest);
      var early := conv.(messages := history + [AssistantMessage(acc + Concat(first))]);
      var late := conv.(messages := history + [AssistantMessage(acc + Concat(first + rest))]);
      ReplaceByIdTwice(s.conversations, early, late);
    }
  }

  /** The conversation `sendMessage` writes to, and the state it starts from: the current one,
      or a new one created on demand. */
  function Target(s: State, id: string, createdAt: int): (r: (State, Conversation))
    ensures s.current.Some? ==> r == (s, s.current.value)
    ensures s.current.None? ==> r == CreateNewConversation(s, id, createdAt)
  {
    if s.current.Some? then (s, s.current.value) else CreateNewConversation(s, id, createdAt)
  }

  /** The conversation with the user's message appended and the title settled. */
  function WithUserMessage(conv: Conversation, content: string, images: Option<seq<string>>): Conversation {
    conv.(messages := conv.messages + [UserMessage(content, images)], title := NextTitle(conv, content, images))
  }

  /** The messages the conversation ends with after the stream: the assistant's full text when
      the stream completed with fragments, the fixed apology when it failed, nothing otherwise. */
  function ReplyTail(call: ChatCall): seq<ChatMessage> {
    if call.error.Some? then [AssistantMessage(ErrorReply)]
    else if |call.fragments| > 0 then [AssistantMessage(Concat(call.fragments))]
    else []
  }

  /** `sendMessage(content, images)` against the chat reply, with the clock reading for a
      conversation created on demand. */
  function SendMessage(s: State, content: string, images: Option<seq<string>>, id: string, createdAt: int,
                       h: Host, reply: Reply<Option<StreamBody>>, parse: string -> Parsed): (r: State)
    ensures SendIgnored(s, content, images) ==> r == s
    ensures !SendIgnored(s, content, images) ==>
      var (s1, conv) := Target(s, id, createdAt);
      var updated := WithUserMessage(conv, content, images);
      var call := StreamChat(h, s.selectedModel, updated.messages, reply, parse);
      var final := updated.(messages := updated.messages + ReplyTail(call));
      && r.current == Some(final)
      && r.conversations == ReplaceById(s1.conversations, final)
      && !r.isLoading
      && r.selectedModel == s.selectedModel && r.models == s.models && r.isConnected == s.isConnected
  {
    if SendIgnored(s, content, images) then s
    else
      var (s1, conv) := Target(s, id, createdAt);
      var updated := WithUserMessage(conv, content, images);
      var history := updated.messages;
      var s2 := Show(s1, updated).(isLoading := true);
      var call := StreamChat(h, s.selectedModel, history, reply, parse);
      var s3 := StreamInto(s2, updated, history, [], call.fragments);
      var s4 := if call.error.Some? then Show(s3, updated.(messages := history + [AssistantMessage(ErrorReply)])) else s3;
      SettleAfterStream(s1, updated, call);
      s4.(isLoading := false)
  }

  /** The stream's updates and the error path leave the conversation showing the history
      followed by the reply tail. */
  lemma SettleAfterStream(s1: State, updated: Conversation, call: ChatCall)
    ensures var history := updated.messages;
      var s2 := Show(s1, updated).(isLoading := true);
      var s3 := StreamInto(s2, updated, history, [], call.fragments);
      var s4 := if call.error.Some? then Show(s3, updated.(messages := history + [AssistantMessage(ErrorReply)])) else s3;
      s4 == Show(s1, updated.(messages := history + ReplyTail(call))).(isLoading := true)
  {
    var history := updated.messages;
    var final := updated.(messages := history + ReplyTail(call));
    var s2 := Show(s1, updated).(isLoading := true);
    var s3 := StreamInto(s2, updated, history, [], call.fragments);
    if |call.fragments| > 0 {
      var streamed := updated.(messages := history + [AssistantMessage(Concat(call.fragments))]);
      assert [] + Concat(call.fragments) == Concat(call.fragments);
      assert s3 == Show(s2, streamed);
      ReplaceByIdTwice(s1.conversations, updated, streamed);
      ReplaceByIdTwice(s1.conversations, streamed, final);
    } else {
      assert history + [] == history;
      ReplaceByIdTwice(s1.conversations, updated, final);
    }
  }

  /** What a send leaves behind: the conversation shown is the previous transcript (empty for
      a conversation created on demand), the user's message, and at most one assistant message;
      a conversation created on demand heads the list; other conversations stay in the list. */
  lemma SendMessageTranscript(s: State, content: string, images: Option<seq<string>>, id: string, createdAt: int,
                              h: Host, reply: Reply<Option<StreamBody>>, parse: string -> Parsed)
    requires !SendIgnored(s, content, images)
    ensures var r := SendMessage(s, content, images, id, createdAt, h, reply, parse);
      var prior := if s.current.Some? then s.current.value.messages else [];
      && r.current.Some?
      && (|r.current.value.messages| == |prior| + 1 || |r.current.value.messages| == |prior| + 2)
      && r.current.value.messages[..|prior| + 1] == prior + [UserMessage(content, images)]
      && (|r.current.value.messages| == |prior| + 2 ==> r.current.value.messages[|prior| + 1].role == Assistant)
    ensures var r := SendMessage(s, content, images, id, createdAt, h, reply, parse);
      s.current.None? ==> |r.conversations| == |s.conversations| + 1 && r.conversations[0] == r.current.value
    ensures var r := SendMessage(s, content, images, id, createdAt, h, reply, parse);
      forall c :: c in s.conversations && c.id != r.current.value.id ==> c in r.conversations
  {
    var r := SendMessage(s, content, images, id, createdAt, h, reply, parse);
    var (s1, conv) := Target(s, id, createdAt);
    var updated := WithUserMessage(conv, content, images);
    var call := StreamChat(h, s.selectedModel, updated.messages, reply, parse);
    var final := updated.(messages := updated.messages + ReplyTail(call));
    var prior := if s.current.Some? then s.current.value.messages else [];
    assert r.current == Some(final) && r.conversations == ReplaceById(s1.conversations, final);
    TranscriptShape(prior, UserMessage(content, images), call);
    if s.current.None? {
      ReplaceNewHead(conv, s.conversations, final);
    } else {
      ReplaceKeepsOthers(s.conversations, final);
    }
  }

  /** The previous transcript, the user's message and the reply tail. */
  lemma TranscriptShape(prior: seq<ChatMessage>, user: ChatMessage, call: ChatCall)
    ensures var ms := prior + [user] + ReplyTail(call);
      && (|ms| == |prior| + 1 || |ms| == |prior| + 2)
      && ms[..|prior| + 1] == prior + [user]
      && (|ms| == |prior| + 2 ==> ms[|prior| + 1].role == Assistant)
  {
    var ms := prior + [user] + ReplyTail(call);
    assert ms[..|prior| + 1] == prior + [user];
  }

  /** Replacing by id keeps every entry under another id. */
  lemma ReplaceKeepsOthers(cs: seq<Conversation>, c: Conversation)
    ensures forall x :: x in cs && x.id != c.id ==> x in ReplaceById(cs, c)
  {
    forall x | x in cs && x.id != c.id
      ensures x in ReplaceById(cs, c)
    {
      var i :| 0 <= i < |cs| && cs[i] == x;
      assert ReplaceById(cs, c)[i] == x;
    }
  }

  /** A conversation put at the head and then replaced by id stays at the head, and the
      entries behind it under other ids stay. */
  lemma ReplaceNewHead(head: Conversation, cs: seq<Conversation>, c: Conversation)
    requires head.id == c.id
    ensures |ReplaceById([head] + cs, c)| == |cs| + 1 && ReplaceById([head] + cs, c)[0] == c
    ensures forall x :: x in cs && x.id != c.id ==> x in ReplaceById([head] + cs, c)
  {
    ReplaceKeepsOthers([head] + cs, c);
  }
}

=== FILE: language.dfy ===
/** Interface language: the two-level lookup of display strings, the text direction that follows
    the language, and the persisted choice. */
module Language {

  const LanguageKey := "language"
  const English := "en"
  const Arabic := "ar"

  datatype Direction = Ltr | Rtl

  /** The translation tables, by language then key. */
  type Tables = map<string, map<string, string>>

  /** The provider's state after mounting, together with what it mirrors onto the document
      element (`dir` and `lang`) and the browser's storage. */
  datatype LanguageState = LanguageState(
    language: string, direction: Direction, documentDir: Direction, documentLang: string,
    storage: map<string, string>)

  /** `tables[lang]?.[key]`, with an absent entry read as empty (falsy). */
  function Entry(tables: Tables, lang: string, key: string): string {
    if lang in tables && key in tables[lang] then tables[lang][key] else []
  }

  /** `t(key)`: the entry for the language, else the English entry, else the key itself; an
      empty entry counts as missing. */
  function Translate(tables: Tables, lang: string, key: string): (r: string)
    ensures Entry(tables, lang, key) != [] ==> r == Entry(tables, lang, key)
    ensures Entry(tables, lang, key) == [] && Entry(tables, English, key) != [] ==> r == Entry(tables, English, key)
    ensures Entry(tables, lang, key) == [] && Entry(tables, English, key) == [] ==> r == key
  {
    var own := Entry(tables, lang, key);
    if own != [] then own
    else
      var english := Entry(tables, English, key);
      if english != [] then english else key
  }

  /** The lookup never yields an empty text for a non-empty key, and a language without a table
      reads exactly like English; a key no table has is shown as itself. */
  lemma TranslateFallsBack(tables: Tables, lang: string, key: string)
    ensures key != [] ==> Translate(tables, lang, key) != []
    ensures lang !in tables ==> Translate(tables, lang, key) == Translate(tables, English, key)
    ensures (forall l :: l in tables ==> key !in tables[l]) ==> Translate(tables, lang, key) == key
  {
  }

  /** Right-to-left exactly for Arabic. */
  function DirectionOf(lang: string): (d: Direction)
    ensures d == Rtl <==> lang == Arabic
  {
    if lang == Arabic then Rtl else Ltr
  }

  /** Record the language and its direction, on the state and on the document element. */
  function Apply(st: LanguageState, lang: string): (r: LanguageState)
    ensures r.language == lang && r.documentLang == lang
    ensures r.direction == r.documentDir == DirectionOf(lang)
    ensures r.storage == st.storage
  {
    st.(language := lang, direction := DirectionOf(lang), documentDir := DirectionOf(lang), documentLang := lang)
  }

  /** The provider before its mount effect runs. */
  function Initial(storage: map<string, string>): LanguageState {
    LanguageState(English, Ltr, Ltr, [], storage)
  }

  /** The mount effect: the saved language, or English when none (or an empty one) is saved. */
  function Mount(storage: map<string, string>): (r: LanguageState)
    ensures LanguageKey in storage && storage[LanguageKey] != [] ==> r.language == storage[LanguageKey]
    ensures !(LanguageKey in storage && storage[LanguageKey] != []) ==> r.language == English
    ensures r.direction == DirectionOf(r.language) && r.storage == storage
  {
    var saved := if LanguageKey in storage && storage[LanguageKey] != [] then storage[LanguageKey] else English;
    Apply(Initial(storage), saved)
  }

  /** `setLanguage`: switch now and remember the choice. */
  function SetLanguage(st: LanguageState, lang: string): (r: LanguageState)
    ensures r.language == lang && r.direction == DirectionOf(lang)
    ensures r.storage == st.storage[LanguageKey := lang]
  {
    Apply(st, lang).(storage := st.storage[LanguageKey := lang])
  }

  /** A chosen language survives a reload with its direction; choosing the empty text comes
      back as English. */
  lemma ChoiceSurvivesReload(st: LanguageState, lang: string)
    ensures var after := Mount(SetLanguage(st, lang).storage);
      lang != [] ==> after.language == lang && after.direction == DirectionOf(lang)
    ensures var after := Mount(SetLanguage(st, lang).storage);
      lang == [] ==> after.language == English && after.direction == Ltr
  {
  }

  /** Switching twice is switching to the second language. */
  lemma LastChoiceWins(st: LanguageState, a: string, b: string)
    ensures SetLanguage(SetLanguage(st, a), b) == SetLanguage(st, b)
  {
  }
}

=== FILE: ollama_client.dfy ===
/** The client library that talks to the model server: where its base address comes from,
    the fail-soft listing calls, the vision-model heuristic, the data-URL payload split, and
    the streaming chat call with its per-chunk newline-delimited JSON decoder.

    Network replies are inputs (`Reply`), and `JSON.parse` of one line is the uninterpreted
    parameter `parse`. */
module OllamaClient {
  import opened Common
  import opened Text

  /** One entry of the server's model listing. */
  datatype OllamaModel = OllamaModel(name: string, modifiedAt: string, size: nat, digest: string)

  datatype Role = User | Assistant | System

  /** A message of a conversation; `images` are base64 payloads, `model` the producing model. */
  datatype ChatMessage = ChatMessage(role: Role, content: string, images: Option<seq<string>>, model: Option<string>)

  /** A message as the chat request carries it: no model tag, images only when there are some. */
  datatype WireMessage = WireMessage(role: Role, content: string, images: Option<seq<string>>)

  /** The body of the chat request, with the address it is posted to. */
  datatype ChatRequest = ChatRequest(url: string, model: string, messages: seq<WireMessage>, stream: bool)

  /** Where the client runs: in a browser (with local storage) or not, and the build-time address. */
  datatype Host = Host(inBrowser: bool, storage: map<string, string>, envUrl: Option<string>)

  /** What a request to the server produced: the request itself failed, or a status and a body. */
  datatype Reply<B> = Unreachable(message: string) | Replied(status: nat, body: B)

  /** The listing body as `response.json()` reads it: not JSON, or an object whose `models`
      field may be missing. */
  datatype TagsBody = Unparsable | Tags(models: Option<seq<OllamaModel>>)

  /** The chat response body: the text chunks the reader delivers, then either the end of the
      stream or a read failure. */
  datatype StreamBody = StreamBody(chunks: seq<string>, readError: Option<string>)

  /** `JSON.parse` of one line: not JSON, or an object with the string at `message.content`
      when there is one. */
  datatype Parsed = Malformed | Obj(content: Option<string>)

  datatype StreamError = RequestFailed(message: string) | HttpError(status: nat) | NoReader | ReadFailed(message: string)

  /** One run of the chat generator: the request sent, the fragments yielded, and the error
      that ended it, if any. */
  datatype ChatCall = ChatCall(request: ChatRequest, fragments: seq<string>, error: Option<StreamError>)

  const BaseUrlKey := "ollama_base_url"
  const ChatPath := "/api/chat"
  const VisionPatterns := ["llava", "vision", "bakllava", "moondream", "cogvlm", "minicpm-v"]

  // ---------------------------------------------------------------------------------------
  // Base address

  /** `process.env.NEXT_PUBLIC_OLLAMA_URL || ''`. */
  function EnvUrl(h: Host): string {
    h.envUrl.GetOr([])
  }

  /** The stored address when the client runs in a browser and one is stored, else empty. */
  function StoredUrl(h: Host): string {
    if h.inBrowser && BaseUrlKey in h.storage then h.storage[BaseUrlKey] else []
  }

  /** `getBaseUrl()`: a non-empty stored address wins, otherwise the build-time one. */
  function GetBaseUrl(h: Host): (r: string)
    ensures StoredUrl(h) != [] ==> r == h.storage[BaseUrlKey]
    ensures StoredUrl(h) == [] ==> r == EnvUrl(h)
  {
    if h.inBrowser then
      var stored := if BaseUrlKey in h.storage then h.storage[BaseUrlKey] else [];
      if stored != [] then stored else EnvUrl(h)
    else
      EnvUrl(h)
  }

  /** `hasBaseUrl()`, written as the source writes it. */
  predicate HasBaseUrl(h: Host) {
    if h.inBrowser then StoredUrl(h) != [] || EnvUrl(h) != [] else EnvUrl(h) != []
  }

  /** `hasEnvUrl()`. */
  predicate HasEnvUrl(h: Host) {
    EnvUrl(h) != []
  }

  /** A base address is configured exactly when `getBaseUrl()` is non-empty; a build-time
      address always configures one, and outside a browser it is the only source. */
  lemma HasBaseUrlIff(h: Host)
    ensures HasBaseUrl(h) <==> GetBaseUrl(h) != []
    ensures HasEnvUrl(h) ==> HasBaseUrl(h)
    ensures !h.inBrowser ==> (HasBaseUrl(h) <==> HasEnvUrl(h))
  {
  }

  /** `setBaseUrl(url)`: stores the address, in a browser only. */
  function SetBaseUrl(h: Host, url: string): (r: Host)
    ensures r.inBrowser == h.inBrowser && r.envUrl == h.envUrl
    ensures h.inBrowser ==> r.storage == h.storage[BaseUrlKey := url]
    ensures !h.inBrowser ==> r == h
  {
    if h.inBrowser then h.(storage := h.storage[BaseUrlKey := url]) else h
  }

  /** In a browser, a non-empty address that was set is the address used; an empty one leaves
      the build-time address in force. */
  lemma SetThenGetBaseUrl(h: Host, url: string)
    requires h.inBrowser
    ensures url != [] ==> GetBaseUrl(SetBaseUrl(h, url)) == url
    ensures url == [] ==> GetBaseUrl(SetBaseUrl(h, url)) == EnvUrl(h)
  {
  }

  // ---------------------------------------------------------------------------------------
  // Listing and connection check

  /** `fetchModels()`: the listed models, and the empty list on any failure. */
  function FetchModels(reply: Reply<TagsBody>): (r: seq<OllamaModel>)
    ensures r != [] ==> reply.Replied? && IsOk(reply.status) && reply.body == Tags(Some(r))
    ensures reply.Replied? && IsOk(reply.status) && reply.body.Tags? && reply.body.models.Some?
      ==> r == reply.body.models.value
  {
    match reply
    case Unreachable(_) => []
    case Replied(status, body) =>
      if !IsOk(status) then []
      else match body
        case Unparsable => []
        case Tags(models) => models.GetOr([])
  }

  /** `checkConnection()`. */
  predicate CheckConnection<B>(reply: Reply<B>) {
    match reply
    case Unreachable(_) => false
    case Replied(status, _) => IsOk(status)
  }

  /** Both calls fail soft on the same reply: no models are listed unless the connection
      check on that reply succeeds, and an unreachable server lists nothing and is disconnected. */
  lemma ListingImpliesConnected(reply: Reply<TagsBody>)
    ensures FetchModels(reply) != [] ==> CheckConnection(reply)
    ensures reply.Unreachable? ==> FetchModels(reply) == [] && !CheckConnection(reply)
    ensures CheckConnection(reply) <==> reply.Replied? && IsOk(reply.status)
  {
  }

  // ---------------------------------------------------------------------------------------
  // Vision-model heuristic

  /** Some pattern of `patterns` occurs in `name`. */
  function AnyOccurs(name: string, patterns: seq<string>): (r: bool)
    ensures r <==> exists k :: 0 <= k < |patterns| && Contains(name, patterns[k])
    decreases |patterns|
  {
    if |patterns| == 0 then false
    else Contains(name, patterns[0]) || AnyOccurs(name, patterns[1..])
  }

  /** `isVisionModel(name)`. */
  function IsVisionModel(name: string): (r: bool)
    ensures r <==> exists k :: 0 <= k < |VisionPatterns| && Contains(ToLower(name), VisionPatterns[k])
  {
    AnyOccurs(ToLower(name), VisionPatterns)
  }

  /** The heuristic ignores case, rejects the empty name, and accepts every name that embeds a
      pattern. */
  lemma VisionModelProperties(name: string, before: string, after: string)
    ensures IsVisionModel(ToLower(name)) == IsVisionModel(name)
    ensures !IsVisionModel([])
    ensures forall k :: 0 <= k < |VisionPatterns| ==> IsVisionModel(before + VisionPatterns[k] + after)
  {
    ToLowerIdempotent(name);
    forall k | 0 <= k < |VisionPatterns|
      ensures !Contains(ToLower([]), VisionPatterns[k])
    {
      NothingInEmpty(VisionPatterns[k]);
    }
    forall k | 0 <= k < |VisionPatterns|
      ensures IsVisionModel(before + VisionPatterns[k] + after)
    {
      var p := VisionPatterns[k];
      assert ToLower(p) == p;
      var s := before + p + after;
      assert ToLower(s) == ToLower(before) + p + ToLower(after);
      ContainsInfix(ToLower(before), p, ToLower(after));
    }
  }

  // ---------------------------------------------------------------------------------------
  // Data-URL payload

  /** `result.split(',')[1]` in `fileToBase64`: the text after the first comma up to the next
      one, or `undefined` when there is no comma. */
  function DataUrlPayload(dataUrl: string): (r: Option<string>)
    ensures r.Some? <==> ',' in dataUrl
    ensures r.Some? ==> ',' !in r.value && exists k :: 0 <= k < |dataUrl| && PayloadAt(dataUrl, k, r.value)
  {
    var parts := Split(dataUrl, ',');
    SplitPieces(dataUrl, ',');
    if |parts| > 1 then
      var k := |parts[0]|;
      assert dataUrl == parts[0] + [','] + dataUrl[k + 1..];
      SplitFirst(parts[0], dataUrl[k + 1..], ',');
      SplitPieces(dataUrl[k + 1..], ',');
      assert PayloadAt(dataUrl, k, parts[1]);
      Some(parts[1])
    else
      None
  }

  /** `payload` starts right after the first comma, at index `k`, and runs to the next comma or
      the end. */
  ghost predicate PayloadAt(dataUrl: string, k: nat, payload: string) {
    && k < |dataUrl| && dataUrl[k] == ','
    && ',' !in dataUrl[..k]
    && payload <= dataUrl[k + 1..]
    && (k + 1 + |payload| == |dataUrl| || dataUrl[k + 1 + |payload|] == ',')
  }

  // ---------------------------------------------------------------------------------------
  // Streaming chat

  /** One message formatted for the request. */
  function FormatMessage(m: ChatMessage): (w: WireMessage)
    ensures w.role == m.role && w.content == m.content
    ensures w.images.Some? <==> m.images.Some? && |m.images.value| > 0
    ensures w.images.Some? ==> w.images == m.images
  {
    WireMessage(m.role, m.content, if m.images.Some? && |m.images.value| > 0 then m.images else None)
  }

  /** The history formatted message by message, in order. */
  function FormatMessages(ms: seq<ChatMessage>): (ws: seq<WireMessage>)
    ensures |ws| == |ms|
    ensures forall i :: 0 <= i < |ms| ==> ws[i].role == ms[i].role && ws[i].content == ms[i].content
    ensures forall i :: 0 <= i < |ms| ==> (ws[i].images.Some? <==> ms[i].images.Some? && |ms[i].images.value| > 0)
    ensures forall i :: 0 <= i < |ms| && ws[i].images.Some? ==> ws[i].images == ms[i].images
  {
    seq(|ms|, i requires 0 <= i < |ms| => FormatMessage(ms[i]))
  }

  /** The fragment one line contributes: blank lines are dropped, malformed lines and objects
      without a non-empty `message.content` contribute nothing. */
  function LineFragment(line: string, parse: string -> Parsed): (r: Option<string>)
    ensures r.Some? <==> HasText(line) && parse(line).Obj? && parse(line).content.Some? && parse(line).content.value != []
    ensures r.Some? ==> r == parse(line).content
  {
    if !HasText(line) then None
    else match parse(line)
      case Malformed => None
      case Obj(content) => if content.Some? && content.value != [] then content else None
  }

  /** The fragments of a list of lines, in order. */
  function DecodeLines(lines: seq<string>, parse: string -> Parsed): (r: seq<string>)
    ensures |r| <= |lines|
    ensures forall i :: 0 <= i < |r| ==> r[i] != []
    decreases |lines|
  {
    if |lines| == 0 then []
    else
      var rest := DecodeLines(lines[1..], parse);
      match LineFragment(lines[0], parse)
      case None => rest
      case Some(f) => [f] + rest
  }

  /** Decoding is line by line: the fragments of two runs of lines are those of the first run
      followed by those of the second. */
  lemma {:induction false} DecodeLinesAppend(a: seq<string>, b: seq<string>, parse: string -> Parsed)
    ensures DecodeLines(a + b, parse) == DecodeLines(a, parse) + DecodeLines(b, parse)
    decreases |a|
  {
    if |a| == 0 {
      assert a + b == b;
    } else {
      assert (a + b)[1..] == a[1..] + b;
      DecodeLinesAppend(a[1..], b, parse);
    }
  }

  /** A single line yields its fragment, if it has one. */
  lemma DecodeOneLine(line: string, parse: string -> Parsed)
    ensures LineFragment(line, parse).None? ==> DecodeLines([line], parse) == []
    ensures LineFragment(line, parse).Some? ==> DecodeLines([line], parse) == [LineFragment(line, parse).value]
  {
  }

  /** The fragments of one chunk: the chunk is split on newlines by itself; nothing is carried
      over from the previous chunk. */
  function DecodeChunk(chunk: string, parse: string -> Parsed): seq<string> {
    DecodeLines(Split(chunk, '\n'), parse)
  }

  /** The fragments of a sequence of chunks, chunk by chunk. */
  function DecodeChunks(chunks: seq<string>, parse: string -> Parsed): (r: seq<string>)
    ensures forall i :: 0 <= i < |r| ==> r[i] != []
    decreases |chunks|
  {
    if |chunks| == 0 then [] else DecodeChunk(chunks[0], parse) + DecodeChunks(chunks[1..], parse)
  }

  /** A chunk that does not cut a line: empty, or ending with a newline. */
  predicate LineAligned(chunk: string) {
    chunk == [] || chunk[|chunk| - 1] == '\n'
  }

  /** A chunk ending with a newline decodes, followed by any text, as itself then that text. */
  lemma DecodeAlignedPrefix(c: string, rest: string, parse: string -> Parsed)
    requires c != [] && c[|c| - 1] == '\n'
    ensures DecodeChunk(c + rest, parse) == DecodeChunk(c, parse) + DecodeChunk(rest, parse)
  {
    var pc := Split(c, '\n');
    var front := pc[..|pc| - 1];
    assert Split(c + rest, '\n') == front + Split(rest, '\n') && pc == front + [[]] by {
      SplitAppend(c, rest, '\n');
    }
    assert DecodeChunk(c, parse) == DecodeLines(front, parse) by {
      DecodeLinesAppend(front, [[]], parse);
      BlankLineDecodesToNothing(parse);
    }
    DecodeLinesAppend(front, Split(rest, '\n'), parse);
  }

  lemma BlankLineDecodesToNothing(parse: string -> Parsed)
    ensures DecodeLines([[]], parse) == []
  {
  }

  /** When every chunk ends on a line boundary, decoding chunk by chunk gives the same fragments
      as decoding the whole body at once. */
  lemma {:induction false} AlignedChunksDecodeAsWhole(chunks: seq<string>, parse: string -> Parsed)
    requires forall i :: 0 <= i < |chunks| ==> LineAligned(chunks[i])
    ensures DecodeChunks(chunks, parse) == DecodeChunk(Concat(chunks), parse)
    decreases |chunks|
  {
    if |chunks| == 0 {
      BlankLineDecodesToNothing(parse);
    } else {
      var c := chunks[0];
      var rest := Concat(chunks[1..]);
      assert Concat(chunks) == c + rest;
      AlignedChunksDecodeAsWhole(chunks[1..], parse);
      if c == [] {
        BlankLineDecodesToNothing(parse);
        assert c + rest == rest;
      } else {
        DecodeAlignedPrefix(c, rest, parse);
      }
    }
  }

  /** A parser that knows exactly one well-formed line. */
  function ParseOnly(line: string, content: string): string -> Parsed {
    (l: string) => if l == line then Obj(Some(content)) else Malformed
  }

  /** A line cut into two chunks is parsed as two separate lines: when the parser accepts only
      the whole line, chunk-by-chunk decoding loses its fragment while decoding the whole body
      yields it. */
  lemma StraddlingLineIsLost(head: string, tail: string, content: string)
    requires head != [] && tail != [] && '\n' !in head + tail
    requires HasText(head + tail) && content != []
    ensures var parse := ParseOnly(head + tail, content);
      && DecodeChunks([head, tail + "\n"], parse) == []
      && DecodeChunk(head + tail + "\n", parse) == [content]
  {
    var line := head + tail;
    var parse := ParseOnly(line, content);
    assert head == line[..|head|] && tail == line[|head|..];
    DecodeUnterminatedLine(head, parse);
    DecodeTerminatedLine(tail, parse);
    DecodeTerminatedLine(line, parse);
    assert |head| != |line| && |tail| != |line|;
    assert parse(head) == Malformed && parse(tail) == Malformed && parse(line) == Obj(Some(content));
    assert LineFragment(head, parse) == None && LineFragment(tail, parse) == None;
    assert LineFragment(line, parse) == Some(content);
    DecodeOneLine(head, parse);
    DecodeOneLine(tail, parse);
    DecodeOneLine(line, parse);
    assert DecodeChunks([tail + "\n"], parse) == DecodeChunk(tail + "\n", parse) + DecodeChunks([], parse);
  }

  /** A chunk without a newline is one line. */
  lemma DecodeUnterminatedLine(line: string, parse: string -> Parsed)
    requires '\n' !in line
    ensures DecodeChunk(line, parse) == DecodeLines([line], parse)
  {
    SplitNoSeparator(line, '\n');
  }

  /** A chunk that is one line and its newline decodes as that line. */
  lemma DecodeTerminatedLine(line: string, parse: string -> Parsed)
    requires '\n' !in line
    ensures DecodeChunk(line + "\n", parse) == DecodeLines([line], parse)
  {
    assert line + "\n" == line + ['\n'] + [];
    SplitFirst(line, [], '\n');
    BlankLineDecodesToNothing(parse);
    DecodeLinesAppend([line], [[]], parse);
  }

  /** `streamChat(model, messages)` against a reply: the request always streams and names the
      model; a failed request or a non-ok status ends the run before any fragment; otherwise the
      fragments are the chunk-by-chunk decoding of what the reader delivered. */
  function StreamChat(h: Host, model: string, messages: seq<ChatMessage>,
                      reply: Reply<Option<StreamBody>>, parse: string -> Parsed): (r: ChatCall)
    ensures r.request.stream && r.request.model == model
    ensures r.request.url == GetBaseUrl(h) + ChatPath
    ensures r.request.messages == FormatMessages(messages)
    ensures reply.Unreachable? ==> r.fragments == [] && r.error == Some(RequestFailed(reply.message))
    ensures reply.Replied? && !IsOk(reply.status) ==> r.fragments == [] && r.error == Some(HttpError(reply.status))
    ensures reply.Replied? && IsOk(reply.status) && reply.body.None? ==> r.fragments == [] && r.error == Some(NoReader)
    ensures r.fragments != [] ==> reply.Replied? && IsOk(reply.status) && reply.body.Some?
    ensures reply.Replied? && IsOk(reply.status) && reply.body.Some? ==>
      r.fragments == DecodeChunks(reply.body.value.chunks, parse)
      && (r.error.Some? <==> reply.body.value.readError.Some?)
  {
    var request := ChatRequest(GetBaseUrl(h) + ChatPath, model, FormatMessages(messages), true);
    match reply
    case Unreachable(msg) => ChatCall(request, [], Some(RequestFailed(msg)))
    case Replied(status, body) =>
      if !IsOk(status) then ChatCall(request, [], Some(HttpError(status)))
      else match body
        case None => ChatCall(request, [], Some(NoReader))
        case Some(b) =>
          var err := match b.readError
            case None => None
            case Some(m) => Some(ReadFailed(m));
          ChatCall(request, DecodeChunks(b.chunks, parse), err)
  }
}

=== FILE: proxy_shared.dfy ===
/** What the two proxy routes share: the upstream outcome they react to, the response they
    build, the trailing-slash cleanup of the configured address, the ordered classifier of
    connection errors, and the CORS preflight answer. */
module ProxyShared {
  import opened Common
  import opened Text

  /** An error caught by a route's guarded block: what a rejected `fetch` throws, and equally
      what a failed body read, a log line or a refused `Response` construction inside the same
      block throws. */
  datatype FetchError = FetchError(name: string, code: Option<string>, message: Option<string>)

  /** What happened upstream: a response with a status and a body, a rejection, or an exception
      raised outside the guarded fetch (for the chat route, the request body not being JSON). */
  datatype Upstream<B> = Responded(status: nat, body: B) | Rejected(error: FetchError) | Unexpected(message: Option<string>)

  /** The body of a proxy response: a JSON error object (with `models: []` when `withModels`),
      the upstream payload passed on, or nothing. */
  datatype Body<D> = ErrorJson(error: string, withModels: bool) | Passthrough(data: D) | NoBody

  datatype Response<D> = Response(status: nat, body: Body<D>, headers: map<string, string>)

  /** The request sent upstream, with its abort timeout. */
  datatype UpstreamRequest = UpstreamRequest(url: string, verb: string, timeoutMs: nat)

  /** The abort timer of one request: never set, or set and then cleared. */
  datatype Timer = NotArmed | Armed | Cleared

  /** Everything one invocation of a route does. */
  datatype Handled<D> = Handled(call: Option<UpstreamRequest>, response: Response<D>, timer: Timer)

  const UrlHeader := "x-ollama-url"
  const MissingUrlText := "Ollama URL not configured. Please complete the setup."
  const AbortErrorName := "AbortError"
  const RefusedCode := "ECONNREFUSED"
  const NotFoundCode := "ENOTFOUND"
  const CertificateWord := "certificate"
  const AltNameCode := "ERR_TLS_CERT_ALTNAME_INVALID"
  const AllowMethods := "GET, POST, OPTIONS"

  /** The headers `Response.json` sets. */
  const JsonHeaders: map<string, string> := map["Content-Type" := "application/json"]

  const AllowOriginName := "Access-Control-Allow-Origin"
  const AllowMethodsName := "Access-Control-Allow-Methods"
  const AllowHeadersName := "Access-Control-Allow-Headers"

  /** The CORS headers of a successful relay. */
  const CorsHeaders: map<string, string> := map[
    AllowOriginName := "*",
    AllowMethodsName := AllowMethods,
    AllowHeadersName := "Content-Type"]

  /** The header is missing or empty (`!ollamaUrl`). */
  predicate MissingUrl(header: Option<string>) {
    header.None? || header.value == []
  }

  /** `url.replace(/\/$/, '')`: one trailing slash removed. */
  function CleanUrl(url: string): (r: string)
    ensures |url| > 0 && url[|url| - 1] == '/' ==> r + "/" == url
    ensures !(|url| > 0 && url[|url| - 1] == '/') ==> r == url
  {
    if |url| > 0 && url[|url| - 1] == '/' then url[..|url| - 1] else url
  }

  /** Appending a slash and cleaning gives the address back; exactly one slash goes, so the
      cleanup is not idempotent on a doubled slash. */
  lemma CleanUrlRemovesOneSlash(url: string)
    ensures CleanUrl(url + "/") == url
    ensures CleanUrl(CleanUrl(url + "//")) == url
    ensures CleanUrl(url + "//") != CleanUrl(CleanUrl(url + "//"))
  {
    assert (url + "/")[..|url|] == url;
    assert (url + "//")[..|url| + 1] == url + "/";
  }

  /** `${value}` of a possibly undefined message. */
  function Display(message: Option<string>): string {
    match message
    case Some(m) => m
    case None => "undefined"
  }

  /** The message has the word (`message?.includes(word)`). */
  predicate MessageHas(message: Option<string>, word: string) {
    message.Some? && Contains(message.value, word)
  }

  function RefusedText(url: string): string {
    "Cannot connect to Ollama at " + url + ". Server refused connection. Make sure Ollama is running: ollama serve"
  }

  function NotFoundText(url: string): string {
    "Cannot resolve hostname in " + url + ". Check the URL is correct."
  }

  function CertificateText(url: string): string {
    "SSL certificate error for " + url + ". If using self-signed certificates, the server may need certificate configuration."
  }

  function AltNameText(url: string): string {
    "SSL certificate name mismatch for " + url + ". The certificate doesn't match the hostname."
  }

  function GenericText(message: Option<string>): string {
    "Connection error: " + Display(message)
  }

  /** The message for a connection failure, first matching rule wins: refused, unresolved host,
      certificate problem, certificate name mismatch, anything else. */
  function ConnectionErrorMessage(url: string, e: FetchError): (r: string)
    ensures e.code == Some(RefusedCode) ==> r == RefusedText(url)
    ensures e.code != Some(RefusedCode) && e.code == Some(NotFoundCode) ==> r == NotFoundText(url)
    ensures e.code != Some(RefusedCode) && e.code != Some(NotFoundCode) ==>
      (MessageHas(e.message, CertificateWord) ==> r == CertificateText(url))
      && (!MessageHas(e.message, CertificateWord) && MessageHas(e.message, AltNameCode) ==> r == AltNameText(url))
      && (!MessageHas(e.message, CertificateWord) && !MessageHas(e.message, AltNameCode) ==> r == GenericText(e.message))
  {
    if e.code == Some(RefusedCode) then RefusedText(url)
    else if e.code == Some(NotFoundCode) then NotFoundText(url)
    else if MessageHas(e.message, CertificateWord) then CertificateText(url)
    else if MessageHas(e.message, AltNameCode) then AltNameText(url)
    else GenericText(e.message)
  }

  /** Every classified message other than the generic one names the cleaned address, and the
      generic one carries the error's own message. */
  lemma ClassifiedMessagesNameTheUrl(url: string, e: FetchError)
    ensures var r := ConnectionErrorMessage(url, e);
      r != GenericText(e.message) ==> Contains(r, url)
    ensures var r := ConnectionErrorMessage(url, e);
      r == GenericText(e.message) ==> Contains(r, Display(e.message))
  {
    var r := ConnectionErrorMessage(url, e);
    ContainsInfix("Cannot connect to Ollama at ", url, ". Server refused connection. Make sure Ollama is running: ollama serve");
    ContainsInfix("Cannot resolve hostname in ", url, ". Check the URL is correct.");
    ContainsInfix("SSL certificate error for ", url, ". If using self-signed certificates, the server may need certificate configuration.");
    ContainsInfix("SSL certificate name mismatch for ", url, ". The certificate doesn't match the hostname.");
    ContainsInfix("Connection error: ", Display(e.message), []);
    assert GenericText(e.message) == "Connection error: " + Display(e.message) + [];
  }

  /** Whatever the error, the classified message is not empty. */
  lemma ConnectionErrorMessageNonEmpty(url: string, e: FetchError)
    ensures ConnectionErrorMessage(url, e) != []
  {
  }

  /** `OPTIONS`: the preflight answer, which also allows the address header. */
  function Preflight(): (r: Response<()>)
    ensures r.status == 200 && r.body == NoBody
    ensures r.headers.Keys == CorsHeaders.Keys
    ensures r.headers[AllowOriginName] == "*" && r.headers[AllowMethodsName] == AllowMethods
    ensures Contains(r.headers[AllowHeadersName], UrlHeader)
  {
    var allowed := "Content-Type, " + UrlHeader;
    ContainsInfix("Content-Type, ", UrlHeader, []);
    assert allowed + [] == allowed;
    Response(200, NoBody, CorsHeaders[AllowHeadersName := allowed])
  }
}

=== FILE: tags_route.dfy ===
/** The model-listing proxy: `GET` asks the configured Ollama server for its installed models and
    always answers 200, carrying either the upstream listing or an error with an empty list. */
module TagsRoute {
  import opened Common
  import opened Text
  import opened ProxyShared
  import ChatRoute

  const TagsSuffix := "/api/tags"
  const TagsTimeoutMs := 10000

  /** What reading the upstream body as JSON gave: a value other than `null`, `null`, or the
      error the read threw (which the same guard as the fetch catches). */
  datatype JsonBody<D> = ParsedJson(data: D) | NullJson | BadJson(error: FetchError)

  /** What the success log line throws when it reads `data.models` of a `null` listing. The
      text is the runtime's. */
  const NullListingError := FetchError("TypeError", None, Some("Cannot read properties of null (reading 'models')"))

  function TimeoutText(url: string): string {
    "Ollama server timeout. Make sure Ollama is running and accessible at: " + url
  }

  /** An error answer: still 200, with `models: []` beside the error. */
  function ListingError<D>(error: string): (r: Response<D>)
    ensures r.status == 200 && r.body.ErrorJson? && r.body.withModels && r.body.error == error
  {
    Response(200, ErrorJson(error, true), JsonHeaders)
  }

  /** The headers of a relayed listing: the CORS set and the JSON content type. */
  const ListingHeaders: map<string, string> := CorsHeaders["Content-Type" := "application/json"]

  function TagsCall(header: string): (q: UpstreamRequest)
    ensures q.url == CleanUrl(header) + TagsSuffix && q.verb == "GET" && q.timeoutMs == TagsTimeoutMs
  {
    UpstreamRequest(CleanUrl(header) + TagsSuffix, "GET", TagsTimeoutMs)
  }

  /** The message for an error caught around the fetch and the body read. */
  function CaughtText(url: string, e: FetchError): (r: string)
    ensures e.name == AbortErrorName ==> r == TimeoutText(url)
    ensures e.name != AbortErrorName ==> r == ConnectionErrorMessage(url, e)
  {
    if e.name == AbortErrorName then TimeoutText(url) else ConnectionErrorMessage(url, e)
  }

  /** `GET` given the address header and what happened upstream. Nothing this route does
      outside its inner guarded block throws, so `Unexpected` never arises from the route itself;
      it is kept for the shared outcome type and answers as the outer handler would. */
  function Get<D>(header: Option<string>, upstream: Upstream<JsonBody<D>>): (r: Handled<D>)
    ensures r.response.status == 200
    ensures r.timer != Armed
    ensures r.call.Some? <==> r.timer == Cleared
    ensures MissingUrl(header) ==> r.call.None? && r.response == ListingError(MissingUrlText)
    ensures !MissingUrl(header) && upstream.Unexpected? ==>
      r.call.None? && r.response == ListingError("Internal server error: " + Display(upstream.message))
    ensures !MissingUrl(header) && !upstream.Unexpected? ==> r.call == Some(TagsCall(header.value))
    ensures !MissingUrl(header) && upstream.Responded? && !IsOk(upstream.status) ==>
      r.response == ListingError("Ollama server error: " + NatToString(upstream.status))
    ensures !MissingUrl(header) && upstream.Responded? && IsOk(upstream.status) && upstream.body.ParsedJson? ==>
      r.response == Response(200, Passthrough(upstream.body.data), ListingHeaders)
    ensures !MissingUrl(header) && upstream.Responded? && IsOk(upstream.status) && upstream.body.BadJson? ==>
      r.response == ListingError(CaughtText(CleanUrl(header.value), upstream.body.error))
    ensures !MissingUrl(header) && upstream.Responded? && IsOk(upstream.status) && upstream.body.NullJson? ==>
      r.response == ListingError(ConnectionErrorMessage(CleanUrl(header.value), NullListingError))
    ensures !MissingUrl(header) && upstream.Rejected? ==>
      r.response == ListingError(CaughtText(CleanUrl(header.value), upstream.error))
  {
    if MissingUrl(header) then
      Handled(None, ListingError(MissingUrlText), NotArmed)
    else
      var url := CleanUrl(header.value);
      match upstream {
        case Unexpected(message) =>
          Handled(None, ListingError("Internal server error: " + Display(message)), NotArmed)
        case Responded(status, body) =>
          if !IsOk(status) then
            Handled(Some(TagsCall(header.value)), ListingError("Ollama server error: " + NatToString(status)), Cleared)
          else
            match body {
              case ParsedJson(data) =>
                Handled(Some(TagsCall(header.value)), Response(200, Passthrough(data), ListingHeaders), Cleared)
              case NullJson =>
                Handled(Some(TagsCall(header.value)), ListingError(CaughtText(url, NullListingError)), Cleared)
              case BadJson(e) =>
                Handled(Some(TagsCall(header.value)), ListingError(CaughtText(url, e)), Cleared)
            }
        case Rejected(e) =>
          Handled(Some(TagsCall(header.value)), ListingError(CaughtText(url, e)), Cleared)
      }
  }

  /** The listing route never fails at the HTTP level: an answer either relays the upstream
      data, exactly when the server answered well with JSON other than `null`, or carries an
      empty model list beside an error that is not empty. */
  lemma GetNeverFails<D>(header: Option<string>, upstream: Upstream<JsonBody<D>>)
    ensures var r := Get(header, upstream).response;
      r.body.Passthrough? <==>
        !MissingUrl(header) && upstream.Responded? && IsOk(upstream.status) && upstream.body.ParsedJson?
    ensures var r := Get(header, upstream).response;
      !r.body.Passthrough? ==> r.body.ErrorJson? && r.body.withModels && r.body.error != []
  {
    if !MissingUrl(header) {
      var url := CleanUrl(header.value);
      if upstream.Rejected? {
        ConnectionErrorMessageNonEmpty(url, upstream.error);
      } else if upstream.Responded? && upstream.body.BadJson? {
        ConnectionErrorMessageNonEmpty(url, upstream.body.error);
      } else if upstream.Responded? && upstream.body.NullJson? {
        ConnectionErrorMessageNonEmpty(url, NullListingError);
      }
    }
  }

  /** A timeout of the listing names the address it tried. */
  lemma TimeoutNamesTheUrl<D>(header: string, e: FetchError)
    requires header != [] && e.name == AbortErrorName
    ensures var r := Get(Some(header), Upstream<JsonBody<D>>.Rejected(e)).response;
      r.body.ErrorJson? && Contains(r.body.error, CleanUrl(header))
  {
    ContainsInfix("Ollama server timeout. Make sure Ollama is running and accessible at: ", CleanUrl(header), []);
    assert TimeoutText(CleanUrl(header)) + [] == TimeoutText(CleanUrl(header));
  }

  /** For the same address and the same connection failure (other than a timeout), the chat
      route and the listing route report the same text; only the status differs. */
  lemma RoutesAgreeOnConnectionErrors<D, E>(header: string, e: FetchError)
    requires header != [] && e.name != AbortErrorName
    ensures var chat := ChatRoute.Post(Some(header), Upstream<D>.Rejected(e)).response;
      var tags := Get(Some(header), Upstream<JsonBody<E>>.Rejected(e)).response;
      chat.status == 503 && tags.status == 200
      && chat.body.ErrorJson? && tags.body.ErrorJson? && chat.body.error == tags.body.error
  {
  }

  /** Both routes report a missing address with the same text. */
  lemma RoutesAgreeOnMissingUrl<D, E>(header: Option<string>, chatUpstream: Upstream<D>, tagsUpstream: Upstream<JsonBody<E>>)
    requires MissingUrl(header)
    ensures var chat := ChatRoute.Post(header, chatUpstream).response;
      var tags := Get(header, tagsUpstream).response;
      chat.status == 400 && tags.status == 200 && chat.body.error == tags.body.error == MissingUrlText
  {
  }
}

=== FILE: text.dfy ===
/** String operations of the JavaScript runtime that the client and the proxy rely on:
    `trim`, `toLowerCase`, `includes`, `split` on one character, and number-to-text. */
module Text {

  /** The characters `String.prototype.trim` removes: white space and line terminators. */
  predicate IsWhitespace(c: char) {
    || c == ' ' || c == '\t' || c == '\n' || c == '\U{B}' || c == '\U{C}' || c == '\r'
    || c == '\U{A0}' || c == '\U{1680}' || ('\U{2000}' <= c <= '\U{200A}')
    || c == '\U{2028}' || c == '\U{2029}' || c == '\U{202F}' || c == '\U{205F}'
    || c == '\U{3000}' || c == '\U{FEFF}'
  }

  ghost predicate AllWhitespace(s: string) {
    forall i :: 0 <= i < |s| ==> IsWhitespace(s[i])
  }

  /** Leading white space removed. */
  function TrimStart(s: string): (r: string)
    ensures |r| <= |s| && r == s[|s| - |r|..]
    ensures r == [] || !IsWhitespace(r[0])
    ensures AllWhitespace(s[..|s| - |r|])
    decreases |s|
  {
    if |s| > 0 && IsWhitespace(s[0]) then TrimStart(s[1..]) else s
  }

  /** Trailing white space removed. */
  function TrimEnd(s: string): (r: string)
    ensures |r| <= |s| && r == s[..|r|]
    ensures r == [] || !IsWhitespace(r[|r| - 1])
    ensures AllWhitespace(s[|r|..])
    decreases |s|
  {
    if |s| > 0 && IsWhitespace(s[|s| - 1]) then TrimEnd(s[..|s| - 1]) else s
  }

  /** `s.trim()`: the text between the leading and the trailing white space. */
  function Trim(s: string): (r: string)
    ensures |r| <= |s|
    ensures r == [] <==> AllWhitespace(s)
    ensures r != [] ==> !IsWhitespace(r[0]) && !IsWhitespace(r[|r| - 1])
  {
    var t := TrimStart(s);
    var r := TrimEnd(t);
    assert r == [] ==> AllWhitespace(s) by {
      if r == [] {
        assert s == s[..|s| - |t|] + t;
        assert t == t[|r|..];
      }
    }
    r
  }

  /** The truthiness of `s.trim()`: the text holds something other than white space. */
  predicate HasText(s: string) {
    Trim(s) != []
  }

  lemma HasTextIff(s: string)
    ensures HasText(s) <==> exists i :: 0 <= i < |s| && !IsWhitespace(s[i])
  {
  }

  /** `toLowerCase` on the ASCII letters; every other character is kept. */
  function LowerChar(c: char): char {
    if 'A' <= c <= 'Z' then (c as int + 32) as char else c
  }

  function ToLower(s: string): (r: string)
    ensures |r| == |s|
    ensures forall i :: 0 <= i < |r| ==> !('A' <= r[i] <= 'Z')
    ensures forall i :: 0 <= i < |r| ==> r[i] == s[i] || ('A' <= s[i] <= 'Z' && r[i] as int == s[i] as int + 32)
  {
    seq(|s|, i requires 0 <= i < |s| => LowerChar(s[i]))
  }

  lemma ToLowerIdempotent(s: string)
    ensures ToLower(ToLower(s)) == ToLower(s)
  {
  }

  /** `p` occurs in `s` starting at index `i`. */
  ghost predicate OccursAt(s: string, p: string, i: int) {
    0 <= i <= |s| - |p| && s[i..i + |p|] == p
  }

  /** `s.includes(p)`. */
  function Contains(s: string, p: string): (r: bool)
    ensures r <==> exists i :: OccursAt(s, p, i)
    decreases |s|
  {
    if p <= s then
      assert OccursAt(s, p, 0);
      true
    else if |s| == 0 then
      false
    else
      var r := Contains(s[1..], p);
      assert r ==> exists i :: OccursAt(s, p, i) by {
        if r {
          var i :| OccursAt(s[1..], p, i);
          assert s[i + 1..i + 1 + |p|] == s[1..][i..i + |p|];
          assert OccursAt(s, p, i + 1);
        }
      }
      assert (exists i :: OccursAt(s, p, i)) ==> r by {
        if exists i :: OccursAt(s, p, i) {
          var i :| OccursAt(s, p, i);
          assert i != 0;
          assert s[1..][i - 1..i - 1 + |p|] == s[i..i + |p|];
          assert OccursAt(s[1..], p, i - 1);
        }
      }
      r
  }

  /** A text always contains itself embedded anywhere. */
  lemma ContainsInfix(a: string, p: string, b: string)
    ensures Contains(a + p + b, p)
  {
    assert (a + p + b)[|a|..|a| + |p|] == p;
    assert OccursAt(a + p + b, p, |a|);
  }

  /** Nothing non-empty occurs in the empty text. */
  lemma NothingInEmpty(p: string)
    requires p != []
    ensures !Contains([], p)
  {
  }

  /** The pieces of `s` between the occurrences of `sep`, as `s.split(sep)` returns them:
      one more piece than there are separators, each possibly empty. */
  function Split(s: string, sep: char): (r: seq<string>)
    ensures |r| >= 1
    decreases |s|
  {
    if |s| == 0 then [[]]
    else
      var rest := Split(s[1..], sep);
      if s[0] == sep then [[]] + rest else [[s[0]] + rest[0]] + rest[1..]
  }

  /** `parts.join(sep)`. */
  function Join(parts: seq<string>, sep: char): string
    decreases |parts|
  {
    if |parts| == 0 then []
    else if |parts| == 1 then parts[0]
    else parts[0] + [sep] + Join(parts[1..], sep)
  }

  /** A text free of the separator is one piece. */
  lemma {:induction false} SplitNoSeparator(p: string, sep: char)
    requires sep !in p
    ensures Split(p, sep) == [p]
    decreases |p|
  {
    if |p| > 0 {
      assert sep !in p[1..];
      SplitNoSeparator(p[1..], sep);
      assert [p[0]] + p[1..] == p;
    }
  }

  /** A separator-free piece followed by the separator splits off as the first piece. */
  lemma {:induction false} SplitFirst(p: string, rest: string, sep: char)
    requires sep !in p
    ensures Split(p + [sep] + rest, sep) == [p] + Split(rest, sep)
    decreases |p|
  {
    var s := p + [sep] + rest;
    if |p| == 0 {
      assert s[1..] == rest;
    } else {
      assert s[1..] == p[1..] + [sep] + rest;
      assert sep !in p[1..];
      SplitFirst(p[1..], rest, sep);
      assert [p[0]] + p[1..] == p;
    }
  }

  /** No piece holds the separator; there is more than one piece exactly when the separator
      occurs; and the first piece is the text before the first separator. */
  lemma {:induction false} SplitPieces(s: string, sep: char)
    ensures var r := Split(s, sep);
      && (forall i :: 0 <= i < |r| ==> sep !in r[i])
      && (|r| > 1 <==> sep in s)
      && r[0] <= s && (|r[0]| == |s| || s[|r[0]|] == sep)
    decreases |s|
  {
    if |s| > 0 {
      SplitPieces(s[1..], sep);
      var rest := Split(s[1..], sep);
      assert s == [s[0]] + s[1..];
      if s[0] != sep {
        var r := Split(s, sep);
        assert r[0] == [s[0]] + rest[0];
        assert forall i :: 1 <= i < |r| ==> r[i] == rest[i];
      }
    }
  }

  /** Joining the pieces back with the separator gives the text. */
  lemma {:induction false} JoinSplit(s: string, sep: char)
    ensures Join(Split(s, sep), sep) == s
    decreases |s|
  {
    if |s| > 0 {
      var rest := Split(s[1..], sep);
      JoinSplit(s[1..], sep);
      if s[0] == sep {
        assert ([[]] + rest)[1..] == rest;
      } else if |rest| > 1 {
        var r := [[s[0]] + rest[0]] + rest[1..];
        assert r[1..] == rest[1..];
        assert Join(rest, sep) == rest[0] + [sep] + Join(rest[1..], sep);
      }
      assert s == [s[0]] + s[1..];
    }
  }

  /** Splitting undoes joining when no piece holds the separator. */
  lemma {:induction false} SplitJoin(parts: seq<string>, sep: char)
    requires |parts| >= 1
    requires forall i :: 0 <= i < |parts| ==> sep !in parts[i]
    ensures Split(Join(parts, sep), sep) == parts
    decreases |parts|
  {
    if |parts| == 1 {
      SplitNoSeparator(parts[0], sep);
    } else {
      SplitJoin(parts[1..], sep);
      SplitFirst(parts[0], Join(parts[1..], sep), sep);
      assert [parts[0]] + parts[1..] == parts;
    }
  }

  /** Splitting a text that ends with the separator, followed by more text: the text's
      pieces less the final empty one, then the pieces of what follows. */
  lemma {:induction false} SplitAppend(a: string, b: string, sep: char)
    requires |a| > 0 && a[|a| - 1] == sep
    ensures var pa := Split(a, sep);
      |pa| >= 2 && pa[|pa| - 1] == [] && Split(a + b, sep) == pa[..|pa| - 1] + Split(b, sep)
    decreases |a|
  {
    var s := a + b;
    assert s[0] == a[0] && s[1..] == a[1..] + b;
    SplitUnfold(a, sep);
    SplitUnfold(s, sep);
    if |a| == 1 {
      assert a[1..] == [] && s[1..] == b;
    } else {
      SplitAppend(a[1..], b, sep);
      SplitStep(a[0], Split(a[1..], sep), Split(b, sep), Split(a[1..] + b, sep), sep, Split(a, sep), Split(s, sep));
    }
  }

  /** One step of `Split`. */
  lemma SplitUnfold(s: string, sep: char)
    requires |s| > 0
    ensures var rest := Split(s[1..], sep);
      Split(s, sep) == if s[0] == sep then [[]] + rest else [[s[0]] + rest[0]] + rest[1..]
  {
  }

  /** The sequence bookkeeping of one step of `Split` over a text whose pieces `pa` end with an
      empty piece that the pieces `y` of what follows replace. */
  lemma SplitStep(c: char, pa: seq<string>, y: seq<string>, x: seq<string>, sep: char, pc: seq<string>, xc: seq<string>)
    requires |pa| >= 2 && pa[|pa| - 1] == [] && |y| >= 1 && x == pa[..|pa| - 1] + y
    requires pc == if c == sep then [[]] + pa else [[c] + pa[0]] + pa[1..]
    requires xc == if c == sep then [[]] + x else [[c] + x[0]] + x[1..]
    ensures |pc| >= 2 && pc[|pc| - 1] == [] && xc == pc[..|pc| - 1] + y
  {
    if c != sep {
      assert x[0] == pa[0];
      assert x[1..] == pa[1..|pa| - 1] + y;
    } else {
      assert ([[]] + pa)[..|pa|] == [[]] + pa[..|pa| - 1];
    }
  }

  /** The concatenation of a sequence of texts, in order. */
  function Concat(parts: seq<string>): string
    decreases |parts|
  {
    if |parts| == 0 then [] else parts[0] + Concat(parts[1..])
  }

  lemma {:induction false} ConcatAppend(a: seq<string>, b: seq<string>)
    ensures Concat(a + b) == Concat(a) + Concat(b)
    decreases |a|
  {
    if |a| == 0 {
      assert a + b == b;
    } else {
      assert (a + b)[1..] == a[1..] + b;
      ConcatAppend(a[1..], b);
    }
  }

  function DigitChar(d: nat): (c: char)
    requires d < 10
    ensures '0' <= c <= '9' && c as int - '0' as int == d
  {
    (d + '0' as int) as char
  }

  /** The decimal text of a non-negative integer, as template-literal interpolation writes it. */
  function NatToString(n: nat): (r: string)
    ensures |r| >= 1
    ensures forall i :: 0 <= i < |r| ==> '0' <= r[i] <= '9'
    decreases n
  {
    if n < 10 then [DigitChar(n)] else NatToString(n / 10) + [DigitChar(n % 10)]
  }

  /** The value of a text of decimal digits. */
  function DecimalValue(s: string): nat
    requires forall i :: 0 <= i < |s| ==> '0' <= s[i] <= '9'
    decreases |s|
  {
    if |s| == 0 then 0 else DecimalValue(s[..|s| - 1]) * 10 + (s[|s| - 1] as int - '0' as int)
  }

  /** Reading back the decimal text gives the number. */
  lemma {:induction false} DecimalRoundTrip(n: nat)
    ensures DecimalValue(NatToString(n)) == n
    decreases n
  {
    if n >= 10 {
      var s := NatToString(n);
      assert s[..|s| - 1] == NatToString(n / 10);
      DecimalRoundTrip(n / 10);
    }
  }
}
